=== FILE: README.md ===
# ClearConsent comprehension pipeline — Dafny model

This project models the core of ClearConsent, a Next.js service that turns an
uploaded surgical consent form into plain-language explainer content and a
seven-question quiz, and records whether a patient understood the form.

The model covers five parts of the code:

- the quiz-option shuffle (`shuffleQuizOptions`), a per-question Fisher–Yates
  shuffle whose `Math.random()` calls are a stream of draws in [0, 1);
- the grading in `POST /api/verify`, with its store effects;
- the pure parts of `generateExplainer`: prompt truncation, the empty-reply error
  and shuffling the generated questions;
- the decision procedure and write order of `POST /api/upload-consent`;
- the SQLite store in `lib/db.ts`. Its tables are values: maps keyed by id, and
  the explainers as a sequence in row order. Each insert checks the primary-key,
  foreign-key and NOT NULL constraints.

Modules, leaves first:

| file | module | models |
|---|---|---|
| wrappers.dfy | `Wrappers` | `Option` (undefined / missing row) and `Result` (value or thrown error) |
| js_text.dfy | `JsText` | JavaScript truthiness, `endsWith`, and `trim()`/`length` in UTF-16 code units |
| js_arrays.dfy | `JsArrays` | `Array.prototype.find` |
| content.dfy | `Content` | the interfaces `KeyPoint`, `MedicalTerm`, `RiskItem`, `QuizQuestion`, `ExplainerContent` |
| shuffle_quiz.dfy | `ShuffleQuiz` | `shuffleQuizOptions` |
| gemini.dfy | `Gemini` | prompt construction and reply post-processing of `generateExplainer` |
| scoring.dfy, scoring_lemmas.dfy | `Scoring`, `ScoringLemmas` | lines 46-73 of the verify route |
| db.dfy | `Db` | the record interfaces and data-access functions of `lib/db.ts` |
| verify_route.dfy, session_lifecycle.dfy | `VerifyRoute`, `SessionLifecycle` | the verify route and the session lifecycle it drives |
| upload_route.dfy, upload_lemmas.dfy | `UploadRoute`, `UploadLemmas` | the upload route |

Inputs the code obtains from the outside are parameters:
- the random stream;
- the uuids;
- the time `datetime('now')` writes;
- `NODE_ENV === 'development'`;
- the request headers;
- what each text extractor returns or throws for the uploaded bytes;
- the external generator, as a function from prompt to reply.

## Where the code is looser than its design

The model follows the code in each of these places. A lemma exhibits each one.

- Generated content is not validated. Nothing checks that there are seven
  questions, that `relatedKeyPoint` is in range, or that percentages and terms
  are grounded in the text (`Gemini.GenerateExplainer`).
- Remediation topics index `questions[...]` instead of the key points.
  Questions have no `title`, so every topic is `'Unknown topic'`
  (`Scoring.TopicFor`, `SessionLifecycle.TopicsStoredIffWrongAnswer`).
- Answers are not required to cover each question exactly once. Any non-empty
  submission is graded, and every duplicate correct answer counts. Answering
  one question twice can pass a two-question quiz, and scores above 100 occur
  (`ScoringLemmas.DuplicateAnswersCanPass`, `ScoringLemmas.ScoreCanExceedHundred`,
  `SessionLifecycle.SubmissionAlwaysGraded`).
- Answer entries are not validated, and `isCorrect` compares two possibly
  undefined values. An entry without `selectedId`, for an id no question has,
  is correct (`undefined === undefined`). As many such entries as there are
  questions pass the quiz and complete the session (`Scoring.GradeAnswer`,
  `ScoringLemmas.BlankAnswersPass`, `ScoringLemmas.BlankSubmissionPassesSevenQuestions`,
  `SessionLifecycle.BlankAnswersCompleteSession`).
- With no stored questions, the outcome depends on the answers.
  - If every answer has a selection, nothing is correct and the submission
    grades as passed with a `NaN` score. SQLite binds `NaN` as NULL, so the
    NOT NULL `score` column rejects the verification insert. The route then
    answers 500, after the patient name has already been overwritten.
  - If some answer lacks a selection, that answer counts as correct. The score
    is `Infinity`, the attempt fails, and the record is stored.

  See `ScoringLemmas.NoQuestionsGrading` and `Db.InsertVerification`.
- The patient name is overwritten on every call that finds the session, not
  written once. A second pass stamps `completed_at` again
  (`SessionLifecycle.NameLastWriteWins`, `SessionLifecycle.CompletionRestamped`).
- The consent form is inserted before generation. A generation failure leaves a
  form row with no explainer (`UploadLemmas.GenerationFailureLeavesFormWithoutExplainer`).
- A generated reply whose `questions` is `null` is accepted. The shuffle skips
  it, `JSON.stringify(null)` stores the text `null`, and the upload answers with
  a patient link. Every later verify for that form renames the patient and then
  fails with a 500, because the parsed `null` has no `find`
  (`UploadLemmas.NullQuestionsStored`, `UploadLemmas.NullQuestionsUploadedButUngradable`).
  A reply with no `questions` member at all fails the insert instead.
- With 200 or more questions, a score of 100 does not imply a pass
  (`ScoringLemmas.HundredWithoutPassing`). Below 200 questions, it does
  (`ScoringLemmas.HundredMeansAllCorrect`).

## Model

| member | source | states |
|---|---|---|
| JsText.TrimEmptyIffAllWhitespace | app/api/upload-consent/route.ts:73 | `trim()` yields the empty string exactly when every code unit is ECMAScript whitespace or a line terminator |
| JsText.TrimKeepsInterior | app/api/upload-consent/route.ts:73 | every non-whitespace code unit of the text survives `trim()` |
| JsText.TrimStart | app/api/upload-consent/route.ts:73 | the result is a suffix, every removed code unit is whitespace, and it does not start with whitespace |
| JsText.TrimEnd | app/api/upload-consent/route.ts:73 | the result is a prefix, every removed code unit is whitespace, and it does not end with whitespace |
| JsText.Trim | app/api/upload-consent/route.ts:73 | `trim()` returns a contiguous slice of the text: everything cut before and after it is whitespace, and the slice neither starts nor ends with whitespace |
| JsText.SliceOfTrimmed | app/api/upload-consent/route.ts:73 | cutting a whitespace prefix and then a whitespace suffix leaves the slice between them, with whitespace outside it |
| JsText.IsWhitespace | app/api/upload-consent/route.ts:73 | the code units `trim()` strips: printable ASCII never is, nor are next line, the Mongolian vowel separator or the zero-width space, which Unicode's White_Space property lists differently |
| JsText.Truthy | app/api/upload-consent/route.ts:25 | a form field passes `!field` exactly when it is present with at least one character, so a field of spaces passes; the verify route's `!sessionId` and `!patientName` use the same test |
| JsText.EndsWith | app/api/upload-consent/route.ts:43-48 | `name.endsWith(suffix)` holds exactly when the suffix fits and matches the name's last characters one by one |
| JsArrays.Find | app/api/verify/route.ts:49 | `find` returns the element at the first index satisfying the predicate, and `undefined` exactly when none does |
| ShuffleQuiz.SwapIndex | lib/shuffleQuiz.ts:12 | `Math.floor(Math.random() * (i + 1))` always lies in `0..i` |
| ShuffleQuiz.SwapIndexReachesEvery | lib/shuffleQuiz.ts:12 | every index `0..i` is produced by some draw in [0, 1) |
| ShuffleQuiz.Swap | lib/shuffleQuiz.ts:13 | `[options[i], options[j]] = [options[j], options[i]]` exchanges the two positions and leaves every other position as it was |
| ShuffleQuiz.SwapPermutes | lib/shuffleQuiz.ts:13 | the destructuring swap keeps the length and the multiset of options |
| ShuffleQuiz.FisherYatesFrom | lib/shuffleQuiz.ts:11-14 | the loop from `i` down to 1 keeps the number of options |
| ShuffleQuiz.FisherYatesFromPermutes | lib/shuffleQuiz.ts:11-14 | the loop from `i` down to 1 permutes the options (same multiset) |
| ShuffleQuiz.FisherYates | lib/shuffleQuiz.ts:7-14 | the shuffle keeps the length, and leaves lists of 0 or 1 options unchanged because the loop does not run |
| ShuffleQuiz.FisherYatesPermutes | lib/shuffleQuiz.ts:7-14 | the shuffled options are a permutation of the original options |
| ShuffleQuiz.ShuffleOptions | lib/shuffleQuiz.ts:7-14 | the imperative in-place loop on the copy computes the functional shuffle and permutes the options |
| ShuffleQuiz.ShuffleQuestion | lib/shuffleQuiz.ts:6-23 | `correctId` is unchanged whether or not an option matched. Only `options` changes, and it is a permutation. An option that `correctId` referenced is still present and still referenced. Questions with at most one option are unchanged |
| ShuffleQuiz.ShuffleQuizOptions | lib/shuffleQuiz.ts:5-25 | one output question per input question, in order. Each output is its input with only the options permuted |
| Gemini.BuildUserPrompt | lib/gemini.ts:133-136 | the prompt carries the procedure name and exactly the first min(8000, length) code units of the document text |
| Gemini.GenerateExplainer | lib/gemini.ts:167-188 | an empty reply raises `Empty response from Abacus API`. Request and parse errors are rethrown unchanged. Parsed content is returned with only `questions` changed, and only when it is an array: a missing or `null` member is returned as is. The change is `shuffleQuizOptions` of them, which permutes each question's options and keeps everything else. No structural check is applied |
| Gemini.GeneratedQuestionsKeepAnswers | lib/gemini.ts:175-177 | after post-processing, each generated question's `correctId` still names the option that carried it in the reply |
| Scoring.GradeAnswer | app/api/verify/route.ts:48-58 | The result echoes the ids. `correctId` is undefined and `explanation` is `''` exactly when no question has the id. Such an answer is correct iff it has no `selectedId`. Otherwise both come from the first question with that id, and `isCorrect` holds iff `selectedId` is present and equals that question's `correctId` |
| Scoring.GradeAll | app/api/verify/route.ts:48-59 | one result per submitted answer, in submission order |
| Scoring.CountCorrect | app/api/verify/route.ts:47-51 | `correct` never exceeds the number of results. It equals it iff every result is correct, and is 0 iff none is |
| Scoring.Incorrect | app/api/verify/route.ts:67 | the filter keeps exactly the incorrect results: everything kept is an incorrect result, and every incorrect result is kept |
| Scoring.CorrectPlusIncorrect | app/api/verify/route.ts:47-67 | every result is counted either in `correct` or in the filtered incorrect list, never both |
| Scoring.RoundPercent | app/api/verify/route.ts:62 | The score is the integer nearest the exact value `100 * correct / total`, with halves rounded up as `Math.round` does. The program rounds a double instead: at an exact half the double can fall just below it, so the program's score is then one lower (23 of 40 gives 57 there, 58 here; see "## Left out") |
| Scoring.ScoreOf | app/api/verify/route.ts:61-62 | With no questions the score is `NaN` iff nothing is correct, and `Infinity` iff something is. Otherwise it is the rounded percentage |
| Scoring.TitleOrUnknown | app/api/verify/route.ts:71 | a missing or empty title falls back to `'Unknown topic'` |
| Scoring.TopicFor | app/api/verify/route.ts:68-72 | because the title is looked up among the questions, the topic of every wrong answer is `'Unknown topic'` |
| Scoring.RemediationTopics | app/api/verify/route.ts:66-73 | exactly one topic per incorrect result, each `'Unknown topic'` |
| Scoring.NoQuestionsOnlyBlankAnswersCorrect | app/api/verify/route.ts:49-51 | with no stored questions an answer is correct iff it has no `selectedId`, so nothing is correct iff every answer has one |
| Scoring.Grade | app/api/verify/route.ts:46-73 | `passed` iff `correct` equals the question count, not the answer count. The score brackets `100 * correct / questions`. With no questions, it is `NaN` with a pass when every answer has a selection, and `Infinity` with a failure otherwise. Correct answers plus topics account for every answer |
| ScoringLemmas.RoundPercentIs | app/api/verify/route.ts:62 | the rounding bounds determine the score uniquely |
| ScoringLemmas.FullCountScoresHundred | app/api/verify/route.ts:62-63 | all questions correct scores exactly 100 |
| ScoringLemmas.PassedScoresHundred | app/api/verify/route.ts:61-63 | a pass over a non-empty quiz scores 100 |
| ScoringLemmas.HundredWithoutPassing | app/api/verify/route.ts:62-63 | with 200 or more questions, one wrong answer still scores 100 while failing |
| ScoringLemmas.HundredMeansAllCorrect | app/api/verify/route.ts:62-63 | below 200 questions, a score of 100 holds iff the correct count equals the question count, duplicate answers included |
| ScoringLemmas.SevenQuestionScores | app/api/verify/route.ts:62 | 7/7 scores 100, 6/7 scores 86 and 5/7 scores 71 |
| ScoringLemmas.CorrectAtMostAnswers | app/api/verify/route.ts:47-51 | `correct` never exceeds the number of answers |
| ScoringLemmas.PassNeedsEnoughAnswers | app/api/verify/route.ts:61-63 | a pass needs at least as many answers as questions |
| ScoringLemmas.AllCorrectPasses | app/api/verify/route.ts:46-73 | answering each question of a quiz with distinct ids once with its correct option, in any order, passes, scores 100 and yields no topics |
| ScoringLemmas.BlankAnswersPass | app/api/verify/route.ts:48-63 | as many answers as questions, none with a selection and none naming a question's id, pass the quiz |
| ScoringLemmas.BlankSubmissionPassesSevenQuestions | app/api/verify/route.ts:48-63 | seven `{questionId: 0}` entries pass any seven-question quiz without id 0, scoring 100 |
| ScoringLemmas.DuplicateAnswersCanPass | app/api/verify/route.ts:48-63 | two correct answers to question 1 pass a two-question quiz |
| ScoringLemmas.ScoreCanExceedHundred | app/api/verify/route.ts:48-63 | three correct duplicates over two questions score 150 and fail |
| ScoringLemmas.NoQuestionsGrading | app/api/verify/route.ts:61-63 | With no questions, a submission passes iff every answer has a selection, and then scores `NaN`. Otherwise it scores `Infinity` and fails |
| Db.EmptyIsValid | lib/db.ts:18-58 | an empty store satisfies the schema's constraints |
| Db.GetConsentForm | lib/db.ts:110-115 | returns the stored form for the id, or none |
| Db.InsertConsentForm | lib/db.ts:102-108 | fails with the primary-key error exactly when the id exists. Otherwise the form reads back with the store's `created_at`, and nothing else changes |
| Db.GetExplainerByFormId | lib/db.ts:132-137 | returns an explainer row of that form, and none exactly when no row has the form id |
| Db.InsertExplainer | lib/db.ts:117-130 | a missing `questions` is NULL and violates NOT NULL, while a `null` one is stored as the text `null`. A reused id violates the primary key. An unknown form violates the foreign key. Otherwise one row is appended carrying the content, the default reading level and the store's time, and nothing else changes |
| Db.GetPatientSession | lib/db.ts:147-152 | returns the stored session for the id, or none |
| Db.InsertPatientSession | lib/db.ts:139-145 | the primary and foreign keys are enforced. A new session has the given form, name and address, the store's `started_at`, and a null `completed_at`. No other session changes |
| Db.UpdatePatientName | lib/db.ts:154-160 | overwrites `patient_name` of the matching session only. An unknown id changes nothing |
| Db.CompleteSession | lib/db.ts:162-167 | sets `completed_at` of the matching session only, overwriting any earlier value. An unknown id changes nothing |
| Db.InsertVerification | lib/db.ts:169-183 | A `NaN` score violates NOT NULL, while `Infinity` is stored. A reused id violates the primary key. An unknown session violates the foreign key. Otherwise only the record is added, with the store's `verified_at` |
| Db.InsertConsentFormValid | lib/db.ts:20-26 | a consent-form insert keeps every table constraint |
| Db.InsertExplainerValid | lib/db.ts:28-37 | an explainer insert keeps unique ids and the reference to its form |
| Db.InsertPatientSessionValid | lib/db.ts:39-46 | a session insert keeps every table constraint |
| Db.InsertVerificationValid | lib/db.ts:48-57 | a verification insert keeps every table constraint |
| Db.UpdatesValid | lib/db.ts:154-167 | the name and completion updates keep every table constraint |
| Db.NoExplainerForUnknownForm | lib/db.ts:30 | because of the foreign key, no explainer belongs to a form id that has no form |
| Db.AppendedExplainerFound | lib/db.ts:132-137 | a row appended for a form that had none is the row `getExplainerByFormId` returns for it |
| Db.ErrorMessage | app/api/upload-consent/route.ts:110-115 | the `error.message` a failed insert surfaces in the 500: the violated constraint kind, followed by the column for UNIQUE and NOT NULL |
| Db.ErrorMessageIdentifies | app/api/upload-consent/route.ts:110-115 | A fact about the model, not something the program relies on: two violations with the same message are the same violation. So the 500's text alone names the failed constraint and its column |
| VerifyRoute.ClientIp | app/api/verify/route.ts:88-91 | the stored address is the first non-empty header of `x-forwarded-for` and `x-real-ip`, else `'unknown'`, and is never empty |
| VerifyRoute.HasRequiredFields | app/api/verify/route.ts:22 | A passing request has a non-empty session id, a non-empty name and at least one answer. An empty string, or an empty answer list although `[]` is truthy, fails the check |
| VerifyRoute.StoredTopics | app/api/verify/route.ts:83-86 | topics are sent only when the list is non-empty |
| VerifyRoute.RecordFor | app/api/verify/route.ts:77-92 | The stored record carries the ids, the graded results, score and pass flag, the time and the client address. Its topic list is absent exactly when no answer was wrong, and otherwise it is the list of topics |
| VerifyRoute.StoreGrading | app/api/verify/route.ts:75-96 | The response is graded iff the insert succeeds, i.e. the score is not `NaN`, the id is new and the session exists. Then exactly the record is added, and the session's `completed_at` becomes now iff passed. Otherwise it is a 500 with the renamed store unchanged |
| VerifyRoute.Verify | app/api/verify/route.ts:17-110 | Consent forms and explainers never change, and no session other than the submitted one does. Every path before the name update leaves the store unchanged: a malformed body gives 500, missing fields 400, an unknown session 404. A known session has its name overwritten and no other field but `completed_at` changed. A missing explainer then gives 404, and stored questions that are `null` give 500. Any 500 after the lookup leaves exactly the renamed store. A graded response is exactly `Grade` of the session's stored questions and the submitted answers, so `total` is the question count. It adds exactly one record, under the new id, mirroring the results, and no other record changes. `completed_at` is set to now iff passed |
| SessionLifecycle.VerifyPreservesValid | app/api/verify/route.ts:29-96 | the route keeps every table constraint |
| SessionLifecycle.StoreGradingPreservesValid | app/api/verify/route.ts:75-96 | storing the graded attempt and completing the session keeps every table constraint |
| SessionLifecycle.VerifyAdvancesPhase | app/api/verify/route.ts:34-96 | a call that finds the session leaves it named. A graded pass completes it. Otherwise completion is untouched |
| SessionLifecycle.NameLastWriteWins | app/api/verify/route.ts:34-35 | after two calls on one session, the name is the second call's |
| SessionLifecycle.CompletionRestamped | app/api/verify/route.ts:94-96 | a pass on an already completed session replaces `completed_at` with the new time |
| SessionLifecycle.SubmissionAlwaysGraded | app/api/verify/route.ts:22-63 | any non-empty submission against a stored non-empty quiz is graded, however few questions it answers |
| SessionLifecycle.TopicsStoredIffWrongAnswer | app/api/verify/route.ts:66-86 | topics are stored iff some answer was wrong, one `'Unknown topic'` per wrong answer |
| SessionLifecycle.BlankAnswersCompleteSession | app/api/verify/route.ts:46-96 | one answer without a selection per stored question, for ids no question has, is graded as a pass and stamps the session complete |
| UploadRoute.Classify | app/api/upload-consent/route.ts:37-71 | `text/plain` wins; then the Word MIME type or a `.docx` name; then `application/pdf` or a `.pdf` name; anything else is unsupported |
| UploadRoute.ExtractText | app/api/upload-consent/route.ts:36-71 | Plain text is used as decoded. A Word document gives mammoth's text, and mammoth's exception message becomes a 500. A PDF outside development is a 400. In development, pdf-parse's text is used or its exception becomes a 500. Unsupported files are a 400 |
| UploadRoute.EnoughText | app/api/upload-consent/route.ts:73 | the gate holds iff the trimmed length is at least 50, so the emptiness test adds nothing, and accepted text has at least 50 code units |
| UploadRoute.PatientLink | app/api/upload-consent/route.ts:108 | the link is `/patient/` followed by the form id |
| UploadRoute.StoreForm | app/api/upload-consent/route.ts:80-109 | Once the text is accepted, no response is a 400, and sessions and verifications never change. Success means the form row holds exactly the given names and full text, the id was new, one explainer row for the form is appended, and the link names the form. A 500 adds no explainer, and the forms table is either unchanged or holds exactly the one new row |
| UploadRoute.Upload | app/api/upload-consent/route.ts:18-117 | Missing fields give 400. No 400 writes anything. Sessions and verifications never change. Success means a new form with the submitted names and acceptable text, plus exactly one new explainer row for it, and the link for the form id. A 500 adds no explainer and at most the new form row, holding the submitted names and acceptable text |
| UploadLemmas.ClassificationPriority | app/api/upload-consent/route.ts:37-71 | the MIME type `text/plain` beats a `.pdf` name, and Word beats PDF either way |
| UploadLemmas.PdfRejectedOutsideDevelopment | app/api/upload-consent/route.ts:48-58 | outside development every PDF upload is a 400 with nothing written |
| UploadLemmas.WhitespaceOnlyTextRejected | app/api/upload-consent/route.ts:73-78 | whitespace-only text of any length is a 400 with nothing written |
| UploadLemmas.ShortTextRejected | app/api/upload-consent/route.ts:73-78 | any extracted text whose trimmed length is below 50 is a 400 with nothing written |
| UploadLemmas.GenerationFailureLeavesFormWithoutExplainer | app/api/upload-consent/route.ts:80-91 | when generation throws, the response is 500 with its message. The form row with the full text remains, and the form has no explainer |
| UploadLemmas.SuccessStoresFullText | app/api/upload-consent/route.ts:81-88 | the stored form keeps the whole extracted text, untruncated |
| UploadLemmas.NullQuestionsStored | app/api/upload-consent/route.ts:93-109 | a reply whose `questions` is `null` still uploads: the response carries the link, and the form's explainer holds `null` questions |
| UploadLemmas.NullQuestionsUploadedButUngradable | app/api/verify/route.ts:34-49 | after such an upload, a verify for any new session on the form renames the patient and then answers 500 |
| UploadLemmas.SuccessLinksFormAndExplainer | app/api/upload-consent/route.ts:93-109 | after a successful upload, the explainer read back for the new form is the row just written |
| UploadLemmas.UploadPreservesValid | app/api/upload-consent/route.ts:80-103 | the route keeps every table constraint |

## Left out

- HTTP and framework plumbing (`NextRequest`, `NextResponse`, route config), and all logging.
- The axios call itself, the environment-variable check at lib/gemini.ts:4-11, the model parameters, and the fixed prompt wording. The generator is a function parameter.
- `explainTerm` and the explain-term route: a pass-through to the external service.
- `getDb`, the pragmas and the schema DDL. The schema's constraints appear as checks in the inserts.
- `getVerificationBySession`, the certificate route and the explainer GET route. They are outside the modelled core. The session insert they rely on is modelled.
- Text extraction (UTF-8 decoding, mammoth, pdf-parse) and `file.arrayBuffer()`. What each extractor yields is an input.
- JSON serialisation of the blob columns. Typed values stand in for them, and fields other than `questions` are assumed present in the reply.
- Scoring.RoundPercent: computes `Math.round(correct / total * 100)` exactly on integers instead of in doubles, so it differs when `100 * correct / total` is exactly a half-integer. There the double can land just below the half and the program rounds down. Examples: 23 of 40 gives 57 in the program and 58 here, 29 of 200 gives 14 against 15, and 41 of 40 gives 102 against 103. Otherwise the exact value is at least `1 / (2 * total)` away from a half, far more than the double's error for any realistic question count, so the two agree. Seven questions never produce a half, so every seven-question score in this model is the program's.
- Floating point: `Math.floor(Math.random() * (i + 1))` is computed exactly on reals.
- Scoring.GradeAnswer: a `selectedId` of JSON `null` is not modelled, so a selection is either absent or a string. The program grades a `null` selection as incorrect, since `undefined === null` and `"x" === null` are both false, while the model has no such answer.
- Answer ids: `questionId` is a number. An absent or non-numeric id matches no question, like a number no question has. The echoed `questionId` of such an entry is not modelled.
- The JSON response: `Infinity` and `NaN` serialise as `null`. The model keeps the score value.
- Uniformity of the shuffle. Only range and permutation properties are stated.
- Concurrency between requests, and the timing of `datetime('now')`. It is one timestamp per request.
- The UI and configuration files, and `lib/pdfExtractor.ts`, which no route uses.

=== FILE: content.dfy ===
/**
 * The typed structure of generated explainer content (the interfaces
 * `KeyPoint`, `MedicalTerm`, `RiskItem`, `QuizQuestion` and `ExplainerContent`).
 * The JSON text the generator returns is represented by these values directly.
 */
module Content {
  import opened Wrappers

  datatype KeyPoint = KeyPoint(title: string, explanation: string, analogy: string, icon: string)

  datatype MedicalTerm = MedicalTerm(term: string, definition: string, simpleAnalogy: string)

  datatype Likelihood = Rare | Uncommon | Common

  datatype Severity = Low | Medium | High

  /** `likelihoodPercent` is optional: the generator is told to omit it when the document states no figure. */
  datatype RiskItem = RiskItem(
    name: string,
    likelihood: Likelihood,
    likelihoodPercent: Option<real>,
    severity: Severity,
    description: string)

  /** One answer option; its id travels with it wherever it is moved. */
  datatype QuizOption = QuizOption(id: string, text: string)

  datatype QuizQuestion = QuizQuestion(
    id: int,
    scenario: string,
    question: string,
    options: seq<QuizOption>,
    correctId: string,
    explanation: string,
    relatedKeyPoint: int)

  /**
   * The `questions` member of the parsed output as JavaScript sees it: missing
   * (`undefined`), JSON `null`, or an array. The three serialise differently.
   */
  datatype QuestionList = Absent | Null | Present(items: seq<QuizQuestion>)

  /**
   * Parsed generator output. `questions` is modelled in full because the
   * post-processing tests it before shuffling and the store serialises it;
   * nothing else about the content is checked (question count,
   * `relatedKeyPoint` range, percentages).
   */
  datatype ExplainerContent = ExplainerContent(
    keyPoints: seq<KeyPoint>,
    medicalTerms: seq<MedicalTerm>,
    risks: seq<RiskItem>,
    questions: QuestionList)
}

=== FILE: db.dfy ===
/**
 * The four tables of the record store as values: consent forms, sessions and
 * verification records keyed by id; explainers as a sequence in row order,
 * since they are read back by `form_id` with a scan that returns the first row.
 * Primary-key, foreign-key and NOT NULL constraints reject an insert with the
 * error SQLite raises; `datetime('now')` is the parameter `now`.
 */
module Db {
  import opened Wrappers
  import opened JsText
  import opened Content
  import opened JsArrays
  import opened Scoring

  /** The text `datetime('now')` produces when a row is written. */
  type Timestamp = string

  /** `reading_level` is not among the inserted columns, so every explainer row gets the column default. */
  const DefaultReadingLevel := "6th grade"

  datatype ConsentForm = ConsentForm(
    id: string,
    doctorName: string,
    procedureName: string,
    pdfText: Text,
    createdAt: Timestamp)

  /**
   * An explainer row; the JSON columns hold the typed content they serialise.
   * `questions` is `None` when the column holds the text `null`.
   */
  datatype Explainer = Explainer(
    id: string,
    formId: string,
    keyPoints: seq<KeyPoint>,
    medicalTerms: seq<MedicalTerm>,
    risks: seq<RiskItem>,
    questions: Option<seq<QuizQuestion>>,
    readingLevel: string,
    createdAt: Timestamp)

  datatype PatientSession = PatientSession(
    id: string,
    formId: string,
    patientName: Option<string>,
    startedAt: Timestamp,
    completedAt: Option<Timestamp>,
    ipAddress: Option<string>)

  datatype VerificationRecord = VerificationRecord(
    id: string,
    sessionId: string,
    answers: seq<AnswerResult>,
    score: Score,
    passed: bool,
    reEducationTopics: Option<seq<string>>,
    verifiedAt: Timestamp,
    ipAddress: Option<string>)

  /** A constraint violation, raised as an exception carrying SQLite's message. */
  datatype DbError =
    | UniqueViolation(column: string)
    | ForeignKeyViolation
    | NotNullViolation(column: string)

  /** SQLite's message for a violation: the constraint kind, then the offending table column. */
  function ErrorMessage(e: DbError): (m: string)
    ensures e.UniqueViolation? ==> |m| >= 26 && m[..26] == "UNIQUE constraint failed: " && m[26..] == e.column
    ensures e.NotNullViolation? ==> |m| >= 28 && m[..28] == "NOT NULL constraint failed: " && m[28..] == e.column
    ensures e.ForeignKeyViolation? ==> m == "FOREIGN KEY constraint failed"
  {
    match e
    case UniqueViolation(column) => "UNIQUE constraint failed: " + column
    case ForeignKeyViolation => "FOREIGN KEY constraint failed"
    case NotNullViolation(column) => "NOT NULL constraint failed: " + column
  }

  /** The message identifies the violation: distinct errors never share a message. */
  lemma ErrorMessageIdentifies(e1: DbError, e2: DbError)
    ensures ErrorMessage(e1) == ErrorMessage(e2) ==> e1 == e2
  {
    var m1, m2 := ErrorMessage(e1), ErrorMessage(e2);
    if m1 == m2 {
      assert m1[0] == m2[0];
      if e1.UniqueViolation? && e2.UniqueViolation? {
        assert e1.column == m1[26..] == m2[26..] == e2.column;
      } else if e1.NotNullViolation? && e2.NotNullViolation? {
        assert e1.column == m1[28..] == m2[28..] == e2.column;
      }
    }
  }

  datatype Store = Store(
    forms: map<string, ConsentForm>,
    explainers: seq<Explainer>,
    sessions: map<string, PatientSession>,
    verifications: map<string, VerificationRecord>)

  const Empty := Store(map[], [], map[], map[])

  /** Some explainer row has this id. */
  predicate HasExplainerId(db: Store, id: string) {
    exists i :: 0 <= i < |db.explainers| && db.explainers[i].id == id
  }

  /**
   * What the schema guarantees of stored rows: keys are the rows' ids, explainer
   * ids are unique, every reference names an existing parent row, and no NOT
   * NULL column holds NULL.
   */
  ghost predicate Valid(db: Store) {
    && (forall id :: id in db.forms ==> db.forms[id].id == id)
    && (forall id :: id in db.sessions ==> db.sessions[id].id == id)
    && (forall id :: id in db.verifications ==> db.verifications[id].id == id)
    && (forall i, j :: 0 <= i < j < |db.explainers| ==> db.explainers[i].id != db.explainers[j].id)
    && (forall i :: 0 <= i < |db.explainers| ==> db.explainers[i].formId in db.forms)
    && (forall id :: id in db.sessions ==> db.sessions[id].formId in db.forms)
    && (forall id :: id in db.verifications ==> db.verifications[id].sessionId in db.sessions)
    && (forall id :: id in db.verifications ==> !db.verifications[id].score.NotANumber?)
  }

  lemma EmptyIsValid()
    ensures Valid(Empty)
  {
  }

  /** `getConsentForm`. */
  function GetConsentForm(db: Store, id: string): (r: Option<ConsentForm>)
    ensures r.Some? <==> id in db.forms
    ensures r.Some? ==> r.value == db.forms[id]
  {
    if id in db.forms then Some(db.forms[id]) else None
  }

  /** `insertConsentForm`: `created_at` is set by the store, not taken from the caller. */
  function InsertConsentForm(db: Store, form: ConsentForm, now: Timestamp): (r: Result<Store, DbError>)
    ensures r.Failure? <==> form.id in db.forms
    ensures r.Failure? ==> r.error == UniqueViolation("consent_forms.id")
    ensures r.Success? ==>
      && GetConsentForm(r.value, form.id) == Some(form.(createdAt := now))
      && (forall id :: id != form.id ==> GetConsentForm(r.value, id) == GetConsentForm(db, id))
      && r.value == db.(forms := r.value.forms)
  {
    if form.id in db.forms then Failure(UniqueViolation("consent_forms.id"))
    else Success(db.(forms := db.forms[form.id := form.(createdAt := now)]))
  }

  /** `(e) => e.form_id === formId`. */
  function ForForm(formId: string): Explainer -> bool {
    (e: Explainer) => e.formId == formId
  }

  /** `getExplainerByFormId`: the first explainer row for the form, if any. */
  function GetExplainerByFormId(db: Store, formId: string): (r: Option<Explainer>)
    ensures r.None? <==> forall i :: 0 <= i < |db.explainers| ==> db.explainers[i].formId != formId
    ensures r.Some? ==> r.value in db.explainers && r.value.formId == formId
  {
    Find(db.explainers, ForForm(formId))
  }

  /**
   * `insertExplainer` with the serialised content. A missing `questions` field
   * serialises to `undefined`, which binds as NULL and violates NOT NULL, while
   * a JSON `null` serialises to the text `null`, which is stored; then the
   * primary key, then the reference to the consent form, are checked.
   */
  function InsertExplainer(db: Store, id: string, formId: string, content: ExplainerContent, now: Timestamp)
    : (r: Result<Store, DbError>)
    ensures content.questions.Absent? ==> r == Failure(NotNullViolation("explainers.questions"))
    ensures !content.questions.Absent? && HasExplainerId(db, id) ==> r == Failure(UniqueViolation("explainers.id"))
    ensures !content.questions.Absent? && !HasExplainerId(db, id) && formId !in db.forms ==> r == Failure(ForeignKeyViolation)
    ensures r.Success? <==> !content.questions.Absent? && !HasExplainerId(db, id) && formId in db.forms
    ensures r.Success? ==>
      && r.value == db.(explainers := r.value.explainers)
      && |r.value.explainers| == |db.explainers| + 1
      && r.value.explainers[..|db.explainers|] == db.explainers
      && var e := r.value.explainers[|db.explainers|];
         && e.id == id && e.formId == formId
         && e.keyPoints == content.keyPoints && e.medicalTerms == content.medicalTerms
         && e.risks == content.risks
         && (content.questions.Null? ==> e.questions.None?)
         && (content.questions.Present? ==> e.questions == Some(content.questions.items))
         && e.readingLevel == DefaultReadingLevel && e.createdAt == now
  {
    if content.questions.Absent? then Failure(NotNullViolation("explainers.questions"))
    else if HasExplainerId(db, id) then Failure(UniqueViolation("explainers.id"))
    else if formId !in db.forms then Failure(ForeignKeyViolation)
    else
      var row := Explainer(id, formId, content.keyPoints, content.medicalTerms, content.risks,
                           (if content.questions.Present? then Some(content.questions.items) else None),
                           DefaultReadingLevel, now);
      Success(db.(explainers := db.explainers + [row]))
  }

  /** `getPatientSession`. */
  function GetPatientSession(db: Store, id: string): (r: Option<PatientSession>)
    ensures r.Some? <==> id in db.sessions
    ensures r.Some? ==> r.value == db.sessions[id]
  {
    if id in db.sessions then Some(db.sessions[id]) else None
  }

  /**
   * `insertPatientSession`: `started_at` is set by the store and `completed_at`
   * is not among the inserted columns, so a new session is never complete.
   */
  function InsertPatientSession(db: Store, session: PatientSession, now: Timestamp): (r: Result<Store, DbError>)
    ensures session.id in db.sessions ==> r == Failure(UniqueViolation("patient_sessions.id"))
    ensures session.id !in db.sessions && session.formId !in db.forms ==> r == Failure(ForeignKeyViolation)
    ensures r.Success? <==> session.id !in db.sessions && session.formId in db.forms
    ensures r.Success? ==>
      && r.value == db.(sessions := r.value.sessions)
      && (forall id :: id != session.id ==> GetPatientSession(r.value, id) == GetPatientSession(db, id))
      && var s := GetPatientSession(r.value, session.id);
         && s.Some?
         && s.value.formId == session.formId
         && s.value.patientName == session.patientName
         && s.value.ipAddress == session.ipAddress
         && s.value.startedAt == now
         && s.value.completedAt.None?
  {
    if session.id in db.sessions then Failure(UniqueViolation("patient_sessions.id"))
    else if session.formId !in db.forms then Failure(ForeignKeyViolation)
    else Success(db.(sessions := db.sessions[session.id := session.(startedAt := now, completedAt := None)]))
  }

  /** `updatePatientName`: overwrites the name of the matching session; no match, no change. */
  function UpdatePatientName(db: Store, sessionId: string, name: string): (r: Store)
    ensures r == db.(sessions := r.sessions)
    ensures sessionId !in db.sessions ==> r == db
    ensures sessionId in db.sessions ==>
      GetPatientSession(r, sessionId) == Some(db.sessions[sessionId].(patientName := Some(name)))
    ensures forall id :: id != sessionId ==> GetPatientSession(r, id) == GetPatientSession(db, id)
  {
    if sessionId in db.sessions
    then db.(sessions := db.sessions[sessionId := db.sessions[sessionId].(patientName := Some(name))])
    else db
  }

  /** `completeSession`: stamps `completed_at` on the matching session, overwriting any earlier stamp. */
  function CompleteSession(db: Store, sessionId: string, now: Timestamp): (r: Store)
    ensures r == db.(sessions := r.sessions)
    ensures sessionId !in db.sessions ==> r == db
    ensures sessionId in db.sessions ==>
      GetPatientSession(r, sessionId) == Some(db.sessions[sessionId].(completedAt := Some(now)))
    ensures forall id :: id != sessionId ==> GetPatientSession(r, id) == GetPatientSession(db, id)
  {
    if sessionId in db.sessions
    then db.(sessions := db.sessions[sessionId := db.sessions[sessionId].(completedAt := Some(now))])
    else db
  }

  /**
   * `insertVerification`: `verified_at` is set by the store. A `NaN` score binds
   * as NULL and violates NOT NULL on `score`; `Infinity` is a value and is
   * stored. Then the primary key and the reference to the session are checked.
   */
  function InsertVerification(db: Store, record: VerificationRecord, now: Timestamp): (r: Result<Store, DbError>)
    ensures record.score.NotANumber? ==> r == Failure(NotNullViolation("verification_records.score"))
    ensures !record.score.NotANumber? && record.id in db.verifications ==> r == Failure(UniqueViolation("verification_records.id"))
    ensures r.Success? <==> !record.score.NotANumber? && record.id !in db.verifications && record.sessionId in db.sessions
    ensures r.Success? ==>
      && r.value == db.(verifications := r.value.verifications)
      && r.value.verifications == db.verifications[record.id := record.(verifiedAt := now)]
  {
    if record.score.NotANumber? then Failure(NotNullViolation("verification_records.score"))
    else if record.id in db.verifications then Failure(UniqueViolation("verification_records.id"))
    else if record.sessionId !in db.sessions then Failure(ForeignKeyViolation)
    else Success(db.(verifications := db.verifications[record.id := record.(verifiedAt := now)]))
  }

  /** A successful consent-form insert keeps the store valid. */
  lemma InsertConsentFormValid(db: Store, form: ConsentForm, now: Timestamp)
    requires Valid(db) && InsertConsentForm(db, form, now).Success?
    ensures Valid(InsertConsentForm(db, form, now).value)
  {
  }

  /** A successful explainer insert keeps the store valid: its id is new and its form exists. */
  lemma InsertExplainerValid(db: Store, id: string, formId: string, content: ExplainerContent, now: Timestamp)
    requires Valid(db) && InsertExplainer(db, id, formId, content, now).Success?
    ensures Valid(InsertExplainer(db, id, formId, content, now).value)
  {
    var es := InsertExplainer(db, id, formId, content, now).value.explainers;
    assert es == db.explainers + [es[|db.explainers|]];
    forall i, j | 0 <= i < j < |es|
      ensures es[i].id != es[j].id
    {
      if j == |db.explainers| {
        assert db.explainers[i].id != id;
      }
    }
  }

  /** A successful session insert keeps the store valid. */
  lemma InsertPatientSessionValid(db: Store, session: PatientSession, now: Timestamp)
    requires Valid(db) && InsertPatientSession(db, session, now).Success?
    ensures Valid(InsertPatientSession(db, session, now).value)
  {
  }

  /** A successful verification insert keeps the store valid. */
  lemma InsertVerificationValid(db: Store, record: VerificationRecord, now: Timestamp)
    requires Valid(db) && InsertVerification(db, record, now).Success?
    ensures Valid(InsertVerification(db, record, now).value)
  {
  }

  /** The two session updates keep the store valid. */
  lemma UpdatesValid(db: Store, sessionId: string, name: string, now: Timestamp)
    requires Valid(db)
    ensures Valid(UpdatePatientName(db, sessionId, name))
    ensures Valid(CompleteSession(db, sessionId, now))
  {
  }

  /** In a valid store no explainer belongs to a form id that has no consent form. */
  lemma NoExplainerForUnknownForm(db: Store, formId: string)
    requires Valid(db) && formId !in db.forms
    ensures GetExplainerByFormId(db, formId).None?
  {
  }

  /** An explainer appended for a form that had none is the one read back for that form. */
  lemma AppendedExplainerFound(before: Store, after: Store, formId: string)
    requires GetExplainerByFormId(before, formId).None?
    requires |after.explainers| == |before.explainers| + 1
    requires after.explainers[..|before.explainers|] == before.explainers
    requires after.explainers[|before.explainers|].formId == formId
    ensures GetExplainerByFormId(after, formId) == Some(after.explainers[|before.explainers|])
  {
    var n := |before.explainers|;
    assert forall m :: 0 <= m < n ==> after.explainers[m] == before.explainers[m];
    FindAt(after.explainers, ForForm(formId), n);
  }
}

=== FILE: gemini.dfy ===
/**
 * The pure parts of `generateExplainer`: the user prompt built around the
 * document text, and the post-processing of the generator's reply. The
 * generator itself is an opaque function from prompt to reply.
 */
module Gemini {
  import opened Wrappers
  import opened JsText
  import opened Content
  import opened ShuffleQuiz

  /** Code units of document text placed in the prompt (`pdfText.substring(0, 8000)`). */
  const PromptTextLimit: nat := 8000

  /** Message of the error raised when the reply carries no content. */
  const EmptyResponseError := "Empty response from Abacus API"

  /**
   * The variable parts of the user prompt. The fixed instructions around them
   * (and the system prompt) are constant template text.
   */
  datatype UserPrompt = UserPrompt(procedureName: string, documentExcerpt: Text)

  /** What parsing the reply's `message.content` gives. */
  datatype RawContent =
    | NoContent                      // null, undefined or the empty string
    | Unparseable(message: string)   // `JSON.parse` throws with this message
    | Parsed(value: ExplainerContent)

  /** The outcome of the HTTP call to the chat-completions endpoint. */
  datatype ApiReply =
    | RequestFailed(message: string)  // the request (or reading `choices[0]`) throws
    | Completion(content: RawContent)

  /** The external content generator. */
  type Generator = UserPrompt -> ApiReply

  function Min(a: int, b: int): int {
    if a <= b then a else b
  }

  /**
   * The user prompt: the procedure name and `pdfText.substring(0, 8000)`, which
   * clamps the end to the text's length, i.e. the first 8000 code units.
   */
  function BuildUserPrompt(procedureName: string, pdfText: Text): (p: UserPrompt)
    ensures p.procedureName == procedureName
    ensures |p.documentExcerpt| == Min(PromptTextLimit, |pdfText|)
    ensures p.documentExcerpt <= pdfText
    ensures |pdfText| <= PromptTextLimit ==> p.documentExcerpt == pdfText
  {
    UserPrompt(procedureName, pdfText[..Min(PromptTextLimit, |pdfText|)])
  }

  /** `after` is `before` with each question's options permuted and nothing else changed. */
  ghost predicate QuestionsPermuted(before: seq<QuizQuestion>, after: seq<QuizQuestion>) {
    && |after| == |before|
    && forall k :: 0 <= k < |after| ==>
         after[k] == before[k].(options := after[k].options)
         && multiset(after[k].options) == multiset(before[k].options)
  }

  /**
   * `generateExplainer` after the HTTP call: an empty reply raises, a parse
   * failure or request failure is rethrown unchanged, and parsed content is
   * returned with its questions shuffled when they are a (truthy) array.
   */
  function GenerateExplainer(
    procedureName: string, pdfText: Text, generator: Generator, random: Random, pos: nat)
    : (r: Result<ExplainerContent, string>)
    ensures var reply := generator(BuildUserPrompt(procedureName, pdfText));
      && (reply.RequestFailed? ==> r == Failure(reply.message))
      && (reply == Completion(NoContent) ==> r == Failure(EmptyResponseError))
      && (reply.Completion? && reply.content.Unparseable? ==> r == Failure(reply.content.message))
      && (reply.Completion? && reply.content.Parsed? ==>
            var c := reply.content.value;
            && r.Success?
            && r.value == c.(questions := r.value.questions)
            && (!c.questions.Present? ==> r.value == c)
            && (c.questions.Present? ==>
                  && r.value.questions.Present?
                  && QuestionsPermuted(c.questions.items, r.value.questions.items)
                  && r.value.questions.items == ShuffleQuizOptions(c.questions.items, random, pos)))
  {
    match generator(BuildUserPrompt(procedureName, pdfText))
    case RequestFailed(message) => Failure(message)
    case Completion(NoContent) => Failure(EmptyResponseError)
    case Completion(Unparseable(message)) => Failure(message)
    case Completion(Parsed(parsed)) =>
      if parsed.questions.Present? then
        Success(parsed.(questions := Present(ShuffleQuizOptions(parsed.questions.items, random, pos))))
      else
        Success(parsed)
  }

  /** Shuffling keeps every question's answer key: each `correctId` still names the same option. */
  lemma GeneratedQuestionsKeepAnswers(
    procedureName: string, pdfText: Text, generator: Generator, random: Random, pos: nat,
    k: nat, o: QuizOption)
    requires GenerateExplainer(procedureName, pdfText, generator, random, pos).Success?
    requires var c := GenerateExplainer(procedureName, pdfText, generator, random, pos).value;
      c.questions.Present? && k < |c.questions.items|
    requires var reply := generator(BuildUserPrompt(procedureName, pdfText));
      reply.Completion? && reply.content.Parsed? && reply.content.value.questions.Present?
      && k < |reply.content.value.questions.items|
      && o in reply.content.value.questions.items[k].options
      && o.id == reply.content.value.questions.items[k].correctId
    ensures var q := GenerateExplainer(procedureName, pdfText, generator, random, pos).value.questions.items[k];
      o in q.options && o.id == q.correctId
  {
    var before := generator(BuildUserPrompt(procedureName, pdfText)).content.value.questions.items;
    var after := GenerateExplainer(procedureName, pdfText, generator, random, pos).value.questions.items;
    assert o in multiset(before[k].options);
  }
}

=== FILE: js_arrays.dfy ===
/** `Array.prototype.find`, used both to locate an option by id and a question by id. */
module JsArrays {
  import opened Wrappers

  /** `k` is the first index of `s` whose element satisfies `p`. */
  ghost predicate IsFirstMatch<T>(s: seq<T>, p: T -> bool, k: int) {
    0 <= k < |s| && p(s[k]) && forall m :: 0 <= m < k ==> !p(s[m])
  }

  /** `s.find(p)`: the first element satisfying `p`, or `undefined`. */
  function Find<T>(s: seq<T>, p: T -> bool): (r: Option<T>)
    ensures r.None? <==> forall k :: 0 <= k < |s| ==> !p(s[k])
    ensures r.Some? ==> exists k :: IsFirstMatch(s, p, k) && s[k] == r.value
  {
    if s == [] then None
    else if p(s[0]) then (assert IsFirstMatch(s, p, 0); Some(s[0]))
    else (FirstMatchShift(s, p); Find(s[1..], p))
  }

  /** A first match in the tail is a first match in `s` one place further on, when the head does not match. */
  lemma FirstMatchShift<T>(s: seq<T>, p: T -> bool)
    requires s != [] && !p(s[0])
    ensures forall k :: IsFirstMatch(s[1..], p, k) ==> IsFirstMatch(s, p, k + 1)
  {
  }

  /** The first match is unique, so `Find` is determined by the index characterisation. */
  lemma FindAt<T>(s: seq<T>, p: T -> bool, k: int)
    requires IsFirstMatch(s, p, k)
    ensures Find(s, p) == Some(s[k])
  {
    var r := Find(s, p);
    assert r.Some?;
    var k' :| IsFirstMatch(s, p, k') && s[k'] == r.value;
    assert !(k' < k) && !(k < k');
  }
}

=== FILE: js_text.dfy ===
/**
 * The few JavaScript string behaviours the routes depend on: truthiness of an
 * optional string, `String.prototype.endsWith`, and `trim()`/`length`, which
 * JavaScript measures in UTF-16 code units.
 */
module JsText {
  import opened Wrappers

  /** One UTF-16 code unit, the unit in which JavaScript indexes and measures strings. */
  newtype CodeUnit = u: int | 0 <= u < 0x1_0000

  /** Text whose length and substrings must follow JavaScript exactly. */
  type Text = seq<CodeUnit>

  /**
   * `!s` is false: the string is present and non-empty. Only `undefined`/`null`
   * and `""` are falsy; a string of spaces is truthy.
   */
  predicate Truthy(s: Option<string>)
    ensures Truthy(s) ==> s.Some? && |s.value| >= 1
    ensures s.Some? && |s.value| >= 1 ==> Truthy(s)
  {
    s.Some? && s.value != ""
  }

  /** `s.endsWith(suffix)`: the last `|suffix|` characters of `s` are those of `suffix`, one by one. */
  predicate EndsWith(s: string, suffix: string)
    ensures EndsWith(s, suffix) ==>
      |suffix| <= |s| && forall k :: 0 <= k < |suffix| ==> s[|s| - |suffix| + k] == suffix[k]
    ensures (|suffix| <= |s| && forall k :: 0 <= k < |suffix| ==> s[|s| - |suffix| + k] == suffix[k]) ==>
      EndsWith(s, suffix)
  {
    |suffix| <= |s| && s[|s| - |suffix|..] == suffix
  }

  /**
   * The code units `trim()` removes: the ECMAScript WhiteSpace set (tab, vertical
   * tab, form feed, space, no-break space, zero-width no-break space and the
   * Unicode space separators) and the LineTerminator set.
   */
  predicate IsWhitespace(u: CodeUnit)
    // Printable ASCII is never trimmed.
    ensures 0x21 <= u <= 0x7E ==> !IsWhitespace(u)
    // Unlike Unicode's White_Space property, ECMAScript does not trim next line
    // (U+0085), the Mongolian vowel separator (U+180E) or the zero-width space (U+200B).
    ensures u == 0x85 || u == 0x180E || u == 0x200B ==> !IsWhitespace(u)
  {
    || u == 0x09 || u == 0x0A || u == 0x0B || u == 0x0C || u == 0x0D
    || u == 0x20 || u == 0xA0 || u == 0x1680
    || (0x2000 <= u <= 0x200A)
    || u == 0x2028 || u == 0x2029 || u == 0x202F || u == 0x205F
    || u == 0x3000 || u == 0xFEFF
  }

  /** Leading whitespace removed. */
  function TrimStart(s: Text): (r: Text)
    ensures |r| <= |s| && r == s[|s| - |r|..]
    ensures forall i :: 0 <= i < |s| - |r| ==> IsWhitespace(s[i])
    ensures r == [] || !IsWhitespace(r[0])
  {
    if s == [] || !IsWhitespace(s[0]) then s else TrimStart(s[1..])
  }

  /** Trailing whitespace removed. */
  function TrimEnd(s: Text): (r: Text)
    ensures |r| <= |s| && r == s[..|r|]
    ensures forall i :: |r| <= i < |s| ==> IsWhitespace(s[i])
    ensures r == [] || !IsWhitespace(r[|r| - 1])
  {
    if s == [] || !IsWhitespace(s[|s| - 1]) then s else TrimEnd(s[..|s| - 1])
  }

  /** `s.trim()`: both ends stripped of whitespace. */
  function Trim(s: Text): (r: Text)
    ensures |r| <= |s|
    ensures r == [] || (!IsWhitespace(r[0]) && !IsWhitespace(r[|r| - 1]))
    ensures exists a, b ::
      && 0 <= a <= b <= |s| && r == s[a..b]
      && (forall i :: 0 <= i < a ==> IsWhitespace(s[i]))
      && (forall i :: b <= i < |s| ==> IsWhitespace(s[i]))
  {
    var t := TrimStart(s);
    var r := TrimEnd(t);
    SliceOfTrimmed(s, t, r);
    r
  }

  /**
   * Stripping a whitespace prefix and then a whitespace suffix leaves a slice of
   * the original whose outside is all whitespace.
   */
  lemma SliceOfTrimmed(s: Text, t: Text, r: Text)
    requires |t| <= |s| && t == s[|s| - |t|..]
    requires |r| <= |t| && r == t[..|r|]
    requires forall i :: |r| <= i < |t| ==> IsWhitespace(t[i])
    ensures r == s[|s| - |t|..|s| - |t| + |r|]
    ensures forall i :: |s| - |t| + |r| <= i < |s| ==> IsWhitespace(s[i])
  {
    var a := |s| - |t|;
    forall i | a + |r| <= i < |s| ensures IsWhitespace(s[i]) {
      assert s[i] == t[i - a];
    }
  }

  /** `trim()` yields the empty string exactly when every code unit is whitespace. */
  lemma TrimEmptyIffAllWhitespace(s: Text)
    ensures Trim(s) == [] <==> forall i :: 0 <= i < |s| ==> IsWhitespace(s[i])
  {
    var t := TrimStart(s);
    if Trim(s) == [] {
      assert t == [];
    } else {
      assert t != [];
      assert t[0] == s[|s| - |t|];
    }
  }

  /** Every non-whitespace code unit of `s` survives `trim()`, so it bounds the trimmed length from below. */
  lemma TrimKeepsInterior(s: Text, i: nat)
    requires i < |s| && !IsWhitespace(s[i])
    ensures exists k :: 0 <= k < |Trim(s)| && Trim(s)[k] == s[i]
  {
    var t := TrimStart(s);
    var off := |s| - |t|;
    assert i >= off;
    assert t[i - off] == s[i];
    var e := TrimEnd(t);
    assert i - off < |e|;
    assert Trim(s)[i - off] == s[i];
  }
}

=== FILE: scoring.dfy ===
/**
 * The grading arithmetic of the verify route: each submitted answer looked up
 * by question id, the count of correct answers, the rounded percentage score,
 * the all-or-nothing pass flag and the list of remediation topics.
 */
module Scoring {
  import opened Wrappers
  import opened JsText
  import opened Content
  import opened JsArrays

  /**
   * One submitted answer. Nothing validates the entries, so `selectedId` may be
   * absent (`undefined`).
   */
  datatype Answer = Answer(questionId: int, selectedId: Option<string>)

  /** One entry of `results`; `correctId` is `undefined` when no question has the answer's id. */
  datatype AnswerResult = AnswerResult(
    questionId: int,
    selectedId: Option<string>,
    correctId: Option<string>,
    isCorrect: bool,
    explanation: string)

  /**
   * `Math.round((correct / total) * 100)`. With no questions it is `0 / 0`, i.e.
   * `NaN`, when nothing was correct, and `Infinity` otherwise.
   */
  datatype Score = Percent(value: int) | NotANumber | PositiveInfinity

  /** Placeholder topic for a wrong answer whose topic cannot be resolved. */
  const UnknownTopic := "Unknown topic"

  /** `(q) => q.id === id`. */
  function HasId(id: int): QuizQuestion -> bool {
    (q: QuizQuestion) => q.id == id
  }

  /** `questions.find((q) => q.id === id)`. */
  function FindQuestion(questions: seq<QuizQuestion>, id: int): Option<QuizQuestion> {
    Find(questions, HasId(id))
  }

  /** The first question with this id is at index `k`. */
  ghost predicate FirstWithId(questions: seq<QuizQuestion>, id: int, k: int) {
    IsFirstMatch(questions, HasId(id), k)
  }

  /**
   * The result entry for one answer. `q?.correctId === a.selectedId` compares two
   * possibly-undefined values, so an answer without a selection for an id no
   * question has is correct: `undefined === undefined`.
   */
  function GradeAnswer(questions: seq<QuizQuestion>, a: Answer): (r: AnswerResult)
    ensures r.questionId == a.questionId && r.selectedId == a.selectedId
    ensures r.correctId.None? <==> forall k :: 0 <= k < |questions| ==> questions[k].id != a.questionId
    ensures r.correctId.None? ==> r.explanation == "" && (r.isCorrect <==> a.selectedId.None?)
    ensures forall k :: FirstWithId(questions, a.questionId, k) ==>
      && r.correctId == Some(questions[k].correctId)
      && r.explanation == questions[k].explanation
      && (r.isCorrect <==> a.selectedId == Some(questions[k].correctId))
  {
    var q := FindQuestion(questions, a.questionId);
    assert forall k :: FirstWithId(questions, a.questionId, k) ==> q == Some(questions[k]) by {
      forall k | FirstWithId(questions, a.questionId, k) {
        FindAt(questions, HasId(a.questionId), k);
      }
    }
    AnswerResult(
      a.questionId,
      a.selectedId,
      if q.Some? then Some(q.value.correctId) else None,
      (if q.Some? then Some(q.value.correctId) else None) == a.selectedId,
      if q.Some? then q.value.explanation else "")
  }

  /** `answers.map(...)`: one result per answer, in submission order. */
  function GradeAll(questions: seq<QuizQuestion>, answers: seq<Answer>): (rs: seq<AnswerResult>)
    ensures |rs| == |answers|
    ensures forall i :: 0 <= i < |rs| ==> rs[i] == GradeAnswer(questions, answers[i])
  {
    seq(|answers|, i requires 0 <= i < |answers| => GradeAnswer(questions, answers[i]))
  }

  /** The `correct` counter: results whose `isCorrect` holds. */
  function CountCorrect(rs: seq<AnswerResult>): (c: nat)
    ensures c <= |rs|
    ensures c == |rs| <==> forall i :: 0 <= i < |rs| ==> rs[i].isCorrect
    ensures c == 0 <==> forall i :: 0 <= i < |rs| ==> !rs[i].isCorrect
  {
    if rs == [] then 0
    else
      assert forall i :: 1 <= i < |rs| ==> rs[i] == rs[1..][i - 1];
      (if rs[0].isCorrect then 1 else 0) + CountCorrect(rs[1..])
  }

  /** `results.filter((r) => !r.isCorrect)`. */
  function Incorrect(rs: seq<AnswerResult>): (wrong: seq<AnswerResult>)
    ensures |wrong| <= |rs|
    ensures forall i :: 0 <= i < |wrong| ==> wrong[i] in rs && !wrong[i].isCorrect
    ensures forall i :: 0 <= i < |rs| && !rs[i].isCorrect ==> rs[i] in wrong
  {
    if rs == [] then []
    else
      assert forall i :: 1 <= i < |rs| ==> rs[i] == rs[1..][i - 1];
      (if rs[0].isCorrect then [] else [rs[0]]) + Incorrect(rs[1..])
  }

  /** Every result is counted exactly once: as correct or as incorrect. */
  lemma {:induction false} CorrectPlusIncorrect(rs: seq<AnswerResult>)
    ensures CountCorrect(rs) + |Incorrect(rs)| == |rs|
    ensures forall r :: r in Incorrect(rs) ==> r in rs && !r.isCorrect
  {
    if rs != [] {
      CorrectPlusIncorrect(rs[1..]);
    }
  }

  /**
   * `Math.round((correct / total) * 100)` in exact integer arithmetic: the integer
   * nearest `100 * correct / total`, with halves rounded up.
   */
  function RoundPercent(correct: nat, total: nat): (r: int)
    requires total > 0
    ensures 2 * total * r - total <= 200 * correct < 2 * total * r + total
  {
    (200 * correct + total) / (2 * total)
  }

  /**
   * The score of `correct` right answers over `total` questions. With no
   * questions the division is by zero: `0 / 0` is `NaN`, a positive count over
   * zero is `Infinity`, and `Math.round` keeps both.
   */
  function ScoreOf(correct: nat, total: nat): (s: Score)
    ensures s.NotANumber? <==> total == 0 && correct == 0
    ensures s.PositiveInfinity? <==> total == 0 && correct > 0
    ensures s.Percent? ==> 2 * total * s.value - total <= 200 * correct < 2 * total * s.value + total
  {
    if total == 0 then (if correct == 0 then NotANumber else PositiveInfinity)
    else Percent(RoundPercent(correct, total))
  }

  /**
   * `title` of a quiz question. Quiz questions have no `title` property, so
   * reading it always gives `undefined`.
   */
  function QuestionTitle(q: QuizQuestion): Option<string> {
    None
  }

  /**
   * The remediation topic of a wrong answer: `questions[q.relatedKeyPoint]?.title`,
   * i.e. a title looked up among the QUESTIONS rather than the key points, or
   * the placeholder. The lookup never yields a title.
   */
  function TopicFor(questions: seq<QuizQuestion>, r: AnswerResult): (topic: string)
    ensures topic == UnknownTopic
  {
    match FindQuestion(questions, r.questionId)
    case None => UnknownTopic
    case Some(q) =>
      var k := q.relatedKeyPoint;
      var title := if 0 <= k < |questions| then QuestionTitle(questions[k]) else None;
      TitleOrUnknown(title)
  }

  /** `title || 'Unknown topic'`. */
  function TitleOrUnknown(title: Option<string>): (topic: string)
    ensures topic != ""
    ensures Truthy(title) ==> topic == title.value
    ensures !Truthy(title) ==> topic == UnknownTopic
  {
    if Truthy(title) then title.value else UnknownTopic
  }

  /** `reEducationTopics`: one topic per incorrect result, in order. */
  function RemediationTopics(questions: seq<QuizQuestion>, rs: seq<AnswerResult>): (topics: seq<string>)
    ensures |topics| == |Incorrect(rs)|
    ensures forall i :: 0 <= i < |topics| ==> topics[i] == UnknownTopic
  {
    if rs == [] then []
    else
      (if rs[0].isCorrect then [] else [TopicFor(questions, rs[0])])
      + RemediationTopics(questions, rs[1..])
  }

  /** Everything the route computes from the stored questions and the submitted answers. */
  datatype Grading = Grading(
    results: seq<AnswerResult>,
    correct: nat,
    total: nat,
    score: Score,
    passed: bool,
    topics: seq<string>)

  /**
   * With no questions no answer finds its question, so exactly the answers
   * without a selection are correct: nothing is correct iff every answer
   * carries a `selectedId`.
   */
  lemma NoQuestionsOnlyBlankAnswersCorrect(answers: seq<Answer>)
    ensures forall i :: 0 <= i < |answers| ==> (GradeAll([], answers)[i].isCorrect <==> answers[i].selectedId.None?)
    ensures CountCorrect(GradeAll([], answers)) == 0 <==> forall i :: 0 <= i < |answers| ==> answers[i].selectedId.Some?
  {
    var rs := GradeAll([], answers);
    assert forall i :: 0 <= i < |answers| ==> (rs[i].isCorrect <==> answers[i].selectedId.None?);
  }

  /** Lines 46-73 of the verify route. */
  function Grade(questions: seq<QuizQuestion>, answers: seq<Answer>): (g: Grading)
    ensures |g.results| == |answers|
    ensures forall i :: 0 <= i < |answers| ==> g.results[i] == GradeAnswer(questions, answers[i])
    ensures g.correct == CountCorrect(g.results) && g.total == |questions|
    ensures g.passed <==> g.correct == |questions|
    ensures g.score.NotANumber? <==> |questions| == 0 && g.correct == 0
    ensures g.score.PositiveInfinity? <==> |questions| == 0 && g.correct > 0
    ensures |questions| == 0 ==> (g.passed <==> forall i :: 0 <= i < |answers| ==> answers[i].selectedId.Some?)
    ensures g.score.Percent? ==>
      2 * g.total * g.score.value - g.total <= 200 * g.correct < 2 * g.total * g.score.value + g.total
    ensures g.correct + |g.topics| == |answers|
    ensures forall i :: 0 <= i < |g.topics| ==> g.topics[i] == UnknownTopic
  {
    var results := GradeAll(questions, answers);
    var correct := CountCorrect(results);
    NoQuestionsOnlyBlankAnswersCorrect(answers);
    CorrectPlusIncorrect(results);
    Grading(
      results,
      correct,
      |questions|,
      ScoreOf(correct, |questions|),
      correct == |questions|,
      RemediationTopics(questions, results))
  }
}

=== FILE: scoring_lemmas.dfy ===
/** Properties of the grading arithmetic, including where it is looser than all-or-nothing suggests. */
module ScoringLemmas {
  import opened Wrappers
  import opened Content
  import opened Scoring

  /** Scaling by a positive factor keeps a non-zero integer at least that factor away from zero. */
  lemma ScaledAwayFromZero(t: int, d: int)
    requires t > 0
    ensures d >= 1 ==> t * d >= t
    ensures d <= -1 ==> t * d <= -t
  {
  }

  /**
   * The bounds of `RoundPercent` pin the result down: `p` is the rounded
   * percentage exactly when `p - 1/2 <= 100 * correct / total < p + 1/2`.
   */
  lemma RoundPercentIs(correct: nat, total: nat, p: int)
    requires total > 0
    requires 2 * total * p - total <= 200 * correct < 2 * total * p + total
    ensures RoundPercent(correct, total) == p
  {
    var r := RoundPercent(correct, total);
    assert total * (r - p) == total * r - total * p;
    assert 2 * total * r == 2 * (total * r) && 2 * total * p == 2 * (total * p);
    ScaledAwayFromZero(total, r - p);
  }

  /** A full count scores exactly 100. */
  lemma FullCountScoresHundred(total: nat)
    requires total > 0
    ensures RoundPercent(total, total) == 100
  {
    RoundPercentIs(total, total, 100);
  }

  /** A passing grade over a non-empty quiz always scores 100. */
  lemma PassedScoresHundred(questions: seq<QuizQuestion>, answers: seq<Answer>)
    requires |questions| > 0 && Grade(questions, answers).passed
    ensures Grade(questions, answers).score == Percent(100)
  {
    FullCountScoresHundred(|questions|);
  }

  /**
   * One wrong answer out of 200 or more questions still rounds to 100, although
   * the attempt fails: a score of 100 does not by itself mean a pass.
   */
  lemma HundredWithoutPassing(total: nat)
    requires total >= 200
    ensures RoundPercent(total - 1, total) == 100
  {
    RoundPercentIs(total - 1, total, 100);
  }

  /**
   * Below 200 questions a score of 100 means the correct count equals the
   * question count (duplicate answers included), and nothing else rounds to 100.
   */
  lemma HundredMeansAllCorrect(correct: nat, total: nat)
    requires 0 < total < 200
    ensures RoundPercent(correct, total) == 100 <==> correct == total
  {
    if correct == total {
      FullCountScoresHundred(total);
    } else {
      // |200 * correct - 200 * total| >= 200 > total, so the result is at least one away from 100
      var r := RoundPercent(correct, total);
      assert total * (r - 100) == total * r - total * 100;
      assert 2 * total * r == 2 * (total * r);
      ScaledAwayFromZero(total, r - 100);
    }
  }

  /** The two partial-credit outcomes quoted for the seven-question quiz. */
  lemma SevenQuestionScores()
    ensures RoundPercent(7, 7) == 100
    ensures RoundPercent(6, 7) == 86
    ensures RoundPercent(5, 7) == 71
  {
  }

  /** The correct count never exceeds the number of submitted answers. */
  lemma CorrectAtMostAnswers(questions: seq<QuizQuestion>, answers: seq<Answer>)
    ensures Grade(questions, answers).correct <= |answers|
  {
  }

  /** A pass needs at least as many answers as questions. */
  lemma PassNeedsEnoughAnswers(questions: seq<QuizQuestion>, answers: seq<Answer>)
    requires Grade(questions, answers).passed
    ensures |answers| >= |questions|
  {
    CorrectAtMostAnswers(questions, answers);
  }

  /** Question ids are pairwise distinct. */
  ghost predicate DistinctIds(questions: seq<QuizQuestion>) {
    forall i, j :: 0 <= i < j < |questions| ==> questions[i].id != questions[j].id
  }

  /** The submission that answers each question once, with its correct option. */
  function AnswerKey(questions: seq<QuizQuestion>): seq<Answer> {
    seq(|questions|, k requires 0 <= k < |questions| => Answer(questions[k].id, Some(questions[k].correctId)))
  }

  /**
   * Answering every question of a quiz with distinct ids once with its correct
   * option, in any order, passes with a score of 100 and no remediation topics.
   */
  lemma AllCorrectPasses(questions: seq<QuizQuestion>, answers: seq<Answer>)
    requires |questions| > 0 && DistinctIds(questions)
    requires multiset(answers) == multiset(AnswerKey(questions))
    ensures Grade(questions, answers).passed
    ensures Grade(questions, answers).score == Percent(100)
    ensures Grade(questions, answers).topics == []
  {
    var key := AnswerKey(questions);
    var g := Grade(questions, answers);
    assert |answers| == |multiset(answers)| == |key| == |questions|;
    forall k | 0 <= k < |answers|
      ensures g.results[k].isCorrect
    {
      assert answers[k] in multiset(key);
      var j :| 0 <= j < |key| && key[j] == answers[k];
      assert FirstWithId(questions, questions[j].id, j);
    }
    FullCountScoresHundred(|questions|);
  }

  /**
   * Answers need no selection: entries without a `selectedId` whose ids no
   * question has all count as correct, so as many of them as there are
   * questions pass the quiz.
   */
  lemma BlankAnswersPass(questions: seq<QuizQuestion>, answers: seq<Answer>)
    requires |answers| == |questions|
    requires forall k :: 0 <= k < |answers| ==> answers[k].selectedId.None?
    requires forall k, j :: 0 <= k < |answers| && 0 <= j < |questions| ==> questions[j].id != answers[k].questionId
    ensures Grade(questions, answers).passed
  {
    var g := Grade(questions, answers);
    assert forall k :: 0 <= k < |answers| ==> g.results[k].isCorrect;
  }

  /** Seven answers without a selection, for ids no question has, pass a seven-question quiz. */
  lemma BlankSubmissionPassesSevenQuestions(questions: seq<QuizQuestion>)
    requires |questions| == 7 && forall j :: 0 <= j < 7 ==> questions[j].id != 0
    ensures Grade(questions, seq(7, _ => Answer(0, None))).passed
    ensures Grade(questions, seq(7, _ => Answer(0, None))).score == Percent(100)
  {
    BlankAnswersPass(questions, seq(7, _ => Answer(0, None)));
    FullCountScoresHundred(7);
  }

  /** A two-question quiz used by the examples below. */
  function ExampleQuiz(): seq<QuizQuestion> {
    [ QuizQuestion(1, "", "", [QuizOption("a", ""), QuizOption("b", "")], "b", "", 0),
      QuizQuestion(2, "", "", [QuizOption("a", ""), QuizOption("b", "")], "a", "", 1) ]
  }

  /**
   * Duplicate answers each count: answering question 1 correctly twice and
   * question 2 not at all passes the two-question quiz.
   */
  lemma DuplicateAnswersCanPass()
    ensures Grade(ExampleQuiz(), [Answer(1, Some("b")), Answer(1, Some("b"))]).passed
  {
    var qs := ExampleQuiz();
    assert FirstWithId(qs, 1, 0);
    var g := Grade(qs, [Answer(1, Some("b")), Answer(1, Some("b"))]);
    assert g.results[0].isCorrect && g.results[1].isCorrect;
  }

  /** Three correct duplicates over two questions score 150 and fail: the score is not capped at 100. */
  lemma ScoreCanExceedHundred()
    ensures var g := Grade(ExampleQuiz(), [Answer(1, Some("b")), Answer(1, Some("b")), Answer(1, Some("b"))]);
      g.score == Percent(150) && !g.passed
  {
    var qs := ExampleQuiz();
    assert FirstWithId(qs, 1, 0);
    var g := Grade(qs, [Answer(1, Some("b")), Answer(1, Some("b")), Answer(1, Some("b"))]);
    assert g.results[0].isCorrect && g.results[1].isCorrect && g.results[2].isCorrect;
  }

  /**
   * With no stored questions a submission passes, with a `NaN` score, exactly
   * when every answer carries a selection; otherwise it scores `Infinity` and fails.
   */
  lemma NoQuestionsGrading(answers: seq<Answer>)
    ensures Grade([], answers).passed <==> forall i :: 0 <= i < |answers| ==> answers[i].selectedId.Some?
    ensures Grade([], answers).passed ==> Grade([], answers).score == NotANumber
    ensures !Grade([], answers).passed ==> Grade([], answers).score == PositiveInfinity
  {
  }
}

=== FILE: session_lifecycle.dfy ===
/**
 * The patient-session lifecycle as the verify route drives it. A session row is
 * opened without a name; every graded or partly handled verify call overwrites
 * the name; only a pass stamps `completed_at`, and a later pass stamps it again.
 */
module SessionLifecycle {
  import opened Wrappers
  import opened Content
  import opened Scoring
  import opened ScoringLemmas
  import opened Db
  import opened VerifyRoute

  datatype Phase = Opened | Named | Completed

  /** The phase a session row is in, read off its nullable columns. */
  function PhaseOf(s: PatientSession): Phase {
    if s.completedAt.Some? then Completed
    else if s.patientName.Some? then Named
    else Opened
  }

  /** Storing a graded attempt keeps the store's constraints. */
  lemma StoreGradingPreservesValid(named: Store, sid: string, g: Grading, verificationId: string, ip: string, now: Timestamp)
    requires Valid(named)
    ensures Valid(StoreGrading(named, sid, g, verificationId, ip, now).db)
  {
    var record := RecordFor(verificationId, sid, g, ip, now);
    var inserted := InsertVerification(named, record, now);
    if inserted.Success? {
      InsertVerificationValid(named, record, now);
      UpdatesValid(inserted.value, sid, "", now);
    }
  }

  /** The route never breaks the store's constraints. */
  lemma VerifyPreservesValid(db: Store, req: VerifyRequest, headers: Headers, verificationId: string, now: Timestamp)
    requires Valid(db)
    ensures Valid(Verify(db, req, headers, verificationId, now).db)
  {
    if HasRequiredFields(req) && req.sessionId.value in db.sessions {
      var sid := req.sessionId.value;
      var named := UpdatePatientName(db, sid, req.patientName.value);
      UpdatesValid(db, sid, req.patientName.value, now);
      var e := GetExplainerByFormId(named, db.sessions[sid].formId);
      if e.Some? && e.value.questions.Some? {
        StoreGradingPreservesValid(named, sid, Grade(e.value.questions.value, req.answers.value), verificationId, ClientIp(headers), now);
      }
    }
  }

  /** After any call that found the session, the session is at least named; a graded pass completes it. */
  lemma VerifyAdvancesPhase(db: Store, req: VerifyRequest, headers: Headers, verificationId: string, now: Timestamp)
    requires HasRequiredFields(req) && req.sessionId.value in db.sessions
    ensures var out := Verify(db, req, headers, verificationId, now);
      && PhaseOf(out.db.sessions[req.sessionId.value]) != Opened
      && (out.response.Verified? && out.response.passed ==> PhaseOf(out.db.sessions[req.sessionId.value]) == Completed)
      && (!(out.response.Verified? && out.response.passed) ==>
            PhaseOf(out.db.sessions[req.sessionId.value]) == PhaseOf(db.sessions[req.sessionId.value].(patientName := req.patientName)))
  {
  }

  /** The name is not written once: each call that finds the session overwrites it, so the last call wins. */
  lemma NameLastWriteWins(db: Store, first: VerifyRequest, second: VerifyRequest, headers: Headers,
                          id1: string, id2: string, now1: Timestamp, now2: Timestamp)
    requires HasRequiredFields(first) && HasRequiredFields(second)
    requires first.sessionId == second.sessionId && first.sessionId.value in db.sessions
    ensures var mid := Verify(db, first, headers, id1, now1).db;
      var last := Verify(mid, second, headers, id2, now2).db;
      last.sessions[second.sessionId.value].patientName == Some(second.patientName.value)
  {
  }

  /** A second pass on a completed session restamps `completed_at`: the first completion is not kept. */
  lemma CompletionRestamped(db: Store, req: VerifyRequest, headers: Headers, verificationId: string, now: Timestamp)
    requires HasRequiredFields(req) && req.sessionId.value in db.sessions
    requires PhaseOf(db.sessions[req.sessionId.value]) == Completed
    requires Verify(db, req, headers, verificationId, now).response.Verified?
    requires Verify(db, req, headers, verificationId, now).response.passed
    ensures Verify(db, req, headers, verificationId, now).db.sessions[req.sessionId.value].completedAt == Some(now)
  {
  }

  /**
   * Any non-empty submission against a stored, non-empty quiz is graded: there is
   * no check that every question was answered, or answered once.
   */
  lemma SubmissionAlwaysGraded(db: Store, req: VerifyRequest, headers: Headers, verificationId: string, now: Timestamp)
    requires HasRequiredFields(req) && req.sessionId.value in db.sessions
    requires var e := GetExplainerByFormId(db, db.sessions[req.sessionId.value].formId);
      e.Some? && e.value.questions.Some? && |e.value.questions.value| > 0
    requires verificationId !in db.verifications
    ensures Verify(db, req, headers, verificationId, now).response.Verified?
  {
  }

  /** `re_education_topics` is stored exactly when some answer was wrong, and then lists one topic per wrong answer. */
  lemma TopicsStoredIffWrongAnswer(db: Store, req: VerifyRequest, headers: Headers, verificationId: string, now: Timestamp)
    requires Verify(db, req, headers, verificationId, now).response.Verified?
    ensures var out := Verify(db, req, headers, verificationId, now);
      var v := out.db.verifications[verificationId];
      && (v.reEducationTopics.None? <==> out.response.correct == |req.answers.value|)
      && (v.reEducationTopics.Some? ==>
            |v.reEducationTopics.value| == |req.answers.value| - out.response.correct
            && forall i :: 0 <= i < |v.reEducationTopics.value| ==> v.reEducationTopics.value[i] == UnknownTopic)
  {
    var sid := req.sessionId.value;
    var named := UpdatePatientName(db, sid, req.patientName.value);
    var e := GetExplainerByFormId(named, db.sessions[sid].formId);
    var g := Grade(e.value.questions.value, req.answers.value);
    assert Verify(db, req, headers, verificationId, now).db.verifications[verificationId]
        == RecordFor(verificationId, sid, g, ClientIp(headers), now).(verifiedAt := now);
  }

  /**
   * Answer entries are not validated: as many entries without a selection as
   * there are questions, for ids no question has, pass the quiz and stamp the
   * session complete.
   */
  lemma BlankAnswersCompleteSession(db: Store, req: VerifyRequest, headers: Headers, verificationId: string, now: Timestamp)
    requires HasRequiredFields(req) && req.sessionId.value in db.sessions
    requires verificationId !in db.verifications
    requires var e := GetExplainerByFormId(db, db.sessions[req.sessionId.value].formId);
      var answers := req.answers.value;
      && e.Some? && e.value.questions.Some? && |answers| == |e.value.questions.value|
      && (forall k :: 0 <= k < |answers| ==> answers[k].selectedId.None?)
      && (forall k, j :: 0 <= k < |answers| && 0 <= j < |e.value.questions.value| ==>
            e.value.questions.value[j].id != answers[k].questionId)
    ensures var out := Verify(db, req, headers, verificationId, now);
      && out.response.Verified? && out.response.passed
      && out.db.sessions[req.sessionId.value].completedAt == Some(now)
  {
    var questions := GetExplainerByFormId(db, db.sessions[req.sessionId.value].formId).value.questions.value;
    BlankAnswersPass(questions, req.answers.value);
  }
}

=== FILE: shuffle_quiz.dfy ===
/**
 * Per-question Fisher–Yates shuffle of quiz options (`shuffleQuizOptions`).
 * `Math.random()` is modelled as a stream of draws from [0, 1); each call
 * consumes the next draw, so a position in the stream is threaded through.
 */
module ShuffleQuiz {
  import opened Wrappers
  import opened Content
  import opened JsArrays

  /** A result of `Math.random()`. */
  type Unit = r: real | 0.0 <= r < 1.0

  /** The successive results of `Math.random()`: `random(p)` is the draw at stream position `p`. */
  type Random = nat -> Unit

  /** `Math.floor(Math.random() * (i + 1))`: the partner index for position `i`. */
  function SwapIndex(u: Unit, i: nat): (j: nat)
    ensures j <= i
  {
    var n := (i + 1) as real;
    var x := u * n;
    assert n - x == (1.0 - u) * n;
    assert (1.0 - u) * n > 0.0;
    assert x.Floor as real <= x < n;
    x.Floor
  }

  /** Every index `0..i` is the swap partner for some draw. */
  lemma SwapIndexReachesEvery(i: nat, j: nat)
    requires j <= i
    ensures var u := j as real / (i + 1) as real; 0.0 <= u < 1.0 && SwapIndex(u, i) == j
  {
    var n := (i + 1) as real;
    var u := j as real / n;
    assert u * n == j as real;
  }

  /** `[s[i], s[j]] = [s[j], s[i]]`. */
  function Swap<T>(s: seq<T>, i: nat, j: nat): (r: seq<T>)
    requires i < |s| && j < |s|
    ensures |r| == |s| && r[i] == s[j] && r[j] == s[i]
    ensures forall k :: 0 <= k < |s| && k != i && k != j ==> r[k] == s[k]
  {
    s[i := s[j]][j := s[i]]
  }

  /** A swap only exchanges two elements, so the multiset of elements is unchanged. */
  lemma SwapPermutes<T>(s: seq<T>, i: nat, j: nat)
    requires i < |s| && j < |s|
    ensures |Swap(s, i, j)| == |s| && multiset(Swap(s, i, j)) == multiset(s)
  {
  }

  /** Number of draws a shuffle of `n` elements consumes: one per `i` from `n - 1` down to `1`. */
  function DrawsUsed(n: nat): nat {
    if n == 0 then 0 else n - 1
  }

  /** The loop from index `i` downward, reading draws from stream position `pos` onward. */
  function FisherYatesFrom<T>(s: seq<T>, i: nat, random: Random, pos: nat): (r: seq<T>)
    requires i < |s|
    ensures |r| == |s|
    decreases i
  {
    if i == 0 then s
    else FisherYatesFrom(Swap(s, i, SwapIndex(random(pos), i)), i - 1, random, pos + 1)
  }

  /** Each step is a swap, so the loop as a whole permutes its input. */
  lemma {:induction false} FisherYatesFromPermutes<T>(s: seq<T>, i: nat, random: Random, pos: nat)
    requires i < |s|
    ensures multiset(FisherYatesFrom(s, i, random, pos)) == multiset(s)
    decreases i
  {
    if i > 0 {
      var j := SwapIndex(random(pos), i);
      SwapPermutes(s, i, j);
      FisherYatesFromPermutes(Swap(s, i, j), i - 1, random, pos + 1);
    }
  }

  /** The whole shuffle of `s`, starting at stream position `pos`. */
  function FisherYates<T>(s: seq<T>, random: Random, pos: nat): (r: seq<T>)
    ensures |r| == |s|
    ensures |s| <= 1 ==> r == s
  {
    if |s| == 0 then s else FisherYatesFrom(s, |s| - 1, random, pos)
  }

  /** The shuffle is a permutation: same length, same multiset of elements. */
  lemma FisherYatesPermutes<T>(s: seq<T>, random: Random, pos: nat)
    ensures multiset(FisherYates(s, random, pos)) == multiset(s)
  {
    if |s| > 0 {
      FisherYatesFromPermutes(s, |s| - 1, random, pos);
    }
  }

  /** The in-place loop of `shuffleQuizOptions`, on a copy of the options. */
  method ShuffleOptions<T>(options: seq<T>, random: Random, pos: nat) returns (shuffled: seq<T>)
    ensures shuffled == FisherYates(options, random, pos)
    ensures multiset(shuffled) == multiset(options)
  {
    FisherYatesPermutes(options, random, pos);
    shuffled := options;
    if |options| == 0 {
      return;
    }
    var i := |options| - 1;
    var p := pos;
    while i > 0
      invariant 0 <= i < |shuffled| == |options|
      invariant p == pos + (|options| - 1 - i)
      invariant FisherYatesFrom(shuffled, i, random, p) == FisherYates(options, random, pos)
      decreases i
    {
      var j := SwapIndex(random(p), i);
      shuffled := Swap(shuffled, i, j);
      i := i - 1;
      p := p + 1;
    }
  }

  /**
   * One question: shuffle a copy of its options and recompute `correctId` from the
   * option that carried it before the shuffle (or keep it when no option did).
   */
  function ShuffleQuestion(q: QuizQuestion, random: Random, pos: nat): (r: QuizQuestion)
    ensures r.correctId == q.correctId
    ensures r == q.(options := r.options)
    ensures multiset(r.options) == multiset(q.options)
    ensures forall o :: o in q.options && o.id == q.correctId ==> o in r.options && o.id == r.correctId
    ensures |q.options| <= 1 ==> r == q
  {
    var correctOption := Find(q.options, (o: QuizOption) => o.id == q.correctId);
    var options := FisherYates(q.options, random, pos);
    FisherYatesPermutes(q.options, random, pos);
    var newCorrectId := if correctOption.Some? then correctOption.value.id else q.correctId;
    assert forall o :: o in q.options ==> o in multiset(options);
    q.(options := options, correctId := newCorrectId)
  }

  /** `shuffleQuizOptions`: every question shuffled in turn, each consuming its own stretch of draws. */
  function ShuffleQuizOptions(questions: seq<QuizQuestion>, random: Random, pos: nat): (r: seq<QuizQuestion>)
    ensures |r| == |questions|
    ensures forall k :: 0 <= k < |r| ==> r[k] == questions[k].(options := r[k].options)
    ensures forall k :: 0 <= k < |r| ==> multiset(r[k].options) == multiset(questions[k].options)
    ensures forall k :: 0 <= k < |r| && |questions[k].options| <= 1 ==> r[k] == questions[k]
  {
    if questions == [] then []
    else
      [ShuffleQuestion(questions[0], random, pos)]
      + ShuffleQuizOptions(questions[1..], random, pos + DrawsUsed(|questions[0].options|))
  }
}

=== FILE: upload_lemmas.dfy ===
/** Properties of the upload route: validation gates, classification priority and write order. */
module UploadLemmas {
  import opened Wrappers
  import opened JsText
  import opened Content
  import opened ShuffleQuiz
  import opened Gemini
  import opened Db
  import opened UploadRoute
  import VerifyRoute

  /** The extension never outranks the MIME type's class, and Word outranks PDF. */
  lemma ClassificationPriority()
    ensures Classify(UploadFile("consent.pdf", "text/plain")) == PlainText
    ensures Classify(UploadFile("consent.docx", "application/pdf")) == WordDocument
    ensures Classify(UploadFile("consent.pdf", DocxMimeType)) == WordDocument
    ensures Classify(UploadFile("consent.pdf", "application/octet-stream")) == Pdf
    ensures Classify(UploadFile("consent.rtf", "application/rtf")) == Unsupported
  {
  }

  /** Outside development every PDF upload is a 400 and nothing is written. */
  lemma PdfRejectedOutsideDevelopment(
    db: Store, req: UploadRequest, ext: Extraction, generator: Generator, random: Random, pos: nat,
    formId: string, explainerId: string, now: Timestamp)
    requires FieldsPresent(req) && Classify(req.file.value) == Pdf
    ensures Upload(db, req, ext, false, generator, random, pos, formId, explainerId, now)
         == UploadOutcome(BadRequest(PdfDisabled), db)
  {
  }

  /** Text that is whitespace only, however long, is a 400 and nothing is written. */
  lemma WhitespaceOnlyTextRejected(
    db: Store, req: UploadRequest, ext: Extraction, development: bool, generator: Generator,
    random: Random, pos: nat, formId: string, explainerId: string, now: Timestamp)
    requires FieldsPresent(req)
    requires var t := ExtractText(Classify(req.file.value), development, ext);
      t.Success? && forall i :: 0 <= i < |t.value| ==> IsWhitespace(t.value[i])
    ensures Upload(db, req, ext, development, generator, random, pos, formId, explainerId, now)
         == UploadOutcome(BadRequest(NoText), db)
  {
    TrimEmptyIffAllWhitespace(ExtractText(Classify(req.file.value), development, ext).value);
  }

  /**
   * The length gate in both directions: text whose trimmed length is below 50
   * code units is a 400 with nothing written, whatever its content.
   */
  lemma ShortTextRejected(
    db: Store, req: UploadRequest, ext: Extraction, development: bool, generator: Generator,
    random: Random, pos: nat, formId: string, explainerId: string, now: Timestamp)
    requires FieldsPresent(req)
    requires var t := ExtractText(Classify(req.file.value), development, ext);
      t.Success? && |Trim(t.value)| < MinTextLength
    ensures Upload(db, req, ext, development, generator, random, pos, formId, explainerId, now)
         == UploadOutcome(BadRequest(NoText), db)
  {
  }

  /**
   * The consent form is written before the explainer is generated: when generation
   * fails the response is a 500, the form row with the full text stays, and the
   * form has no explainer.
   */
  lemma GenerationFailureLeavesFormWithoutExplainer(
    db: Store, req: UploadRequest, ext: Extraction, development: bool, generator: Generator,
    random: Random, pos: nat, formId: string, explainerId: string, now: Timestamp)
    requires Valid(db) && FieldsPresent(req) && formId !in db.forms
    requires var t := ExtractText(Classify(req.file.value), development, ext);
      t.Success? && EnoughText(t.value)
      && GenerateExplainer(req.procedureName.value, t.value, generator, random, pos).Failure?
    ensures var text := ExtractText(Classify(req.file.value), development, ext).value;
      var out := Upload(db, req, ext, development, generator, random, pos, formId, explainerId, now);
      && out.response == ServerError(GenerateExplainer(req.procedureName.value, text, generator, random, pos).error)
      && formId in out.db.forms
      && out.db.forms[formId].pdfText == text
      && GetExplainerByFormId(out.db, formId).None?
  {
    var text := ExtractText(Classify(req.file.value), development, ext).value;
    var form := ConsentForm(formId, req.doctorName.value, req.procedureName.value, text, now);
    InsertConsentFormValid(db, form, now);
    NoExplainerForUnknownForm(db, formId);
  }

  /**
   * On success the stored form keeps the whole extracted text, although the
   * generator's prompt carried at most 8000 code units of it.
   */
  lemma SuccessStoresFullText(
    db: Store, req: UploadRequest, ext: Extraction, development: bool, generator: Generator,
    random: Random, pos: nat, formId: string, explainerId: string, now: Timestamp)
    requires Upload(db, req, ext, development, generator, random, pos, formId, explainerId, now).response.Uploaded?
    ensures var out := Upload(db, req, ext, development, generator, random, pos, formId, explainerId, now);
      var text := ExtractText(Classify(req.file.value), development, ext);
      text.Success? && out.db.forms[formId].pdfText == text.value
  {
    var t := ExtractText(Classify(req.file.value), development, ext);
    assert t.Success? && EnoughText(t.value);
    var form := ConsentForm(formId, req.doctorName.value, req.procedureName.value, t.value, now);
    var stored := InsertConsentForm(db, form, now).value;
    assert stored.forms[formId] == form.(createdAt := now);
  }

  /** On success, reading the new form's explainer back gives the row just written. */
  lemma SuccessLinksFormAndExplainer(
    db: Store, req: UploadRequest, ext: Extraction, development: bool, generator: Generator,
    random: Random, pos: nat, formId: string, explainerId: string, now: Timestamp)
    requires Valid(db)
    requires Upload(db, req, ext, development, generator, random, pos, formId, explainerId, now).response.Uploaded?
    ensures var out := Upload(db, req, ext, development, generator, random, pos, formId, explainerId, now);
      GetExplainerByFormId(out.db, formId).Some? && GetExplainerByFormId(out.db, formId).value.id == explainerId
  {
    var out := Upload(db, req, ext, development, generator, random, pos, formId, explainerId, now);
    NoExplainerForUnknownForm(db, formId);
    AppendedExplainerFound(db, out.db, formId);
  }

  /**
   * A reply whose `questions` is JSON `null` is not caught: the upload succeeds,
   * and the form's explainer holds the text `null` for its questions.
   */
  lemma NullQuestionsStored(
    db: Store, req: UploadRequest, ext: Extraction, development: bool, generator: Generator,
    random: Random, pos: nat, formId: string, explainerId: string, now: Timestamp)
    requires Valid(db) && FieldsPresent(req) && formId !in db.forms && !HasExplainerId(db, explainerId)
    requires var t := ExtractText(Classify(req.file.value), development, ext);
      && t.Success? && EnoughText(t.value)
      && var reply := generator(BuildUserPrompt(req.procedureName.value, t.value));
         reply.Completion? && reply.content.Parsed? && reply.content.value.questions.Null?
    ensures var up := Upload(db, req, ext, development, generator, random, pos, formId, explainerId, now);
      && up.response.Uploaded?
      && GetExplainerByFormId(up.db, formId).Some?
      && GetExplainerByFormId(up.db, formId).value.questions.None?
  {
    var text := ExtractText(Classify(req.file.value), development, ext).value;
    var doctorName, procedureName := req.doctorName.value, req.procedureName.value;
    var up := Upload(db, req, ext, development, generator, random, pos, formId, explainerId, now);
    assert up == StoreForm(db, doctorName, procedureName, text, generator, random, pos, formId, explainerId, now);
    var stored := InsertConsentForm(db, ConsentForm(formId, doctorName, procedureName, text, now), now).value;
    assert stored.explainers == db.explainers && formId in stored.forms;
    var content := GenerateExplainer(procedureName, text, generator, random, pos).value;
    assert content.questions.Null?;
    var done := InsertExplainer(stored, explainerId, formId, content, now);
    assert done.Success? && up.db == done.value;
    NoExplainerForUnknownForm(db, formId);
    AppendedExplainerFound(db, up.db, formId);
  }

  /**
   * After such an upload every verify for a session on the form renames the
   * patient and then fails with a 500: the stored `null` has no `find`.
   */
  lemma NullQuestionsUploadedButUngradable(
    db: Store, req: UploadRequest, ext: Extraction, development: bool, generator: Generator,
    random: Random, pos: nat, formId: string, explainerId: string, now: Timestamp,
    session: PatientSession, attempt: VerifyRoute.VerifyRequest, headers: VerifyRoute.Headers,
    verificationId: string, later: Timestamp)
    requires Valid(db) && FieldsPresent(req) && formId !in db.forms && !HasExplainerId(db, explainerId)
    requires var t := ExtractText(Classify(req.file.value), development, ext);
      && t.Success? && EnoughText(t.value)
      && var reply := generator(BuildUserPrompt(req.procedureName.value, t.value));
         reply.Completion? && reply.content.Parsed? && reply.content.value.questions.Null?
    requires session.formId == formId && session.id !in db.sessions
    requires VerifyRoute.HasRequiredFields(attempt) && attempt.sessionId.value == session.id
    ensures var up := Upload(db, req, ext, development, generator, random, pos, formId, explainerId, now);
      && up.response.Uploaded?
      && InsertPatientSession(up.db, session, now).Success?
      && var out := VerifyRoute.Verify(InsertPatientSession(up.db, session, now).value, attempt, headers, verificationId, later);
         && out.response == VerifyRoute.ServerError(VerifyRoute.VerificationFailed)
         && out.db.sessions[session.id].patientName == Some(attempt.patientName.value)
  {
    NullQuestionsStored(db, req, ext, development, generator, random, pos, formId, explainerId, now);
    var up := Upload(db, req, ext, development, generator, random, pos, formId, explainerId, now);
    var withSession := InsertPatientSession(up.db, session, now).value;
    assert withSession.explainers == up.db.explainers;
    assert GetExplainerByFormId(withSession, withSession.sessions[session.id].formId)
        == GetExplainerByFormId(up.db, formId);
  }

  /** The route never breaks the store's constraints. */
  lemma UploadPreservesValid(
    db: Store, req: UploadRequest, ext: Extraction, development: bool, generator: Generator,
    random: Random, pos: nat, formId: string, explainerId: string, now: Timestamp)
    requires Valid(db)
    ensures Valid(Upload(db, req, ext, development, generator, random, pos, formId, explainerId, now).db)
  {
    if FieldsPresent(req) {
      var t := ExtractText(Classify(req.file.value), development, ext);
      if t.Success? && EnoughText(t.value) {
        var form := ConsentForm(formId, req.doctorName.value, req.procedureName.value, t.value, now);
        if InsertConsentForm(db, form, now).Success? {
          var stored := InsertConsentForm(db, form, now).value;
          InsertConsentFormValid(db, form, now);
          var g := GenerateExplainer(req.procedureName.value, t.value, generator, random, pos);
          if g.Success? && InsertExplainer(stored, explainerId, formId, g.value, now).Success? {
            InsertExplainerValid(stored, explainerId, formId, g.value, now);
          }
        }
      }
    }
  }
}

=== FILE: upload_route.dfy ===
/**
 * `POST /api/upload-consent`: check the form fields, classify the file, extract
 * its text, insist on 50 code units of non-whitespace-bounded text, store the
 * consent form, generate the explainer and store it. Text extraction and the
 * generator are inputs; the two uuids and the time are parameters.
 */
module UploadRoute {
  import opened Wrappers
  import opened JsText
  import opened Content
  import opened ShuffleQuiz
  import opened Gemini
  import opened Db

  datatype UploadFile = UploadFile(name: string, mimeType: string)

  /** The multipart form fields `pdf`, `doctorName` and `procedureName`; each may be absent. */
  datatype UploadRequest = UploadRequest(
    file: Option<UploadFile>,
    doctorName: Option<string>,
    procedureName: Option<string>)

  /**
   * What each extractor yields for the uploaded bytes: the UTF-8 decoding, and
   * the text the Word and PDF extractors return or the message they throw.
   */
  datatype Extraction = Extraction(utf8: Text, docx: Result<Text, string>, pdf: Result<Text, string>)

  datatype FileKind = PlainText | WordDocument | Pdf | Unsupported

  datatype UploadResponse =
    | BadRequest(error: string)
    | ServerError(error: string)
    | Uploaded(formId: string, explainerId: string, patientLink: string)
  {
    /** The HTTP status the route answers with. */
    function Status(): int {
      match this
      case BadRequest(_) => 400
      case ServerError(_) => 500
      case Uploaded(_, _, _) => 200
    }
  }

  datatype UploadOutcome = UploadOutcome(response: UploadResponse, db: Store)

  const DocxMimeType := "application/vnd.openxmlformats-officedocument.wordprocessingml.document"

  /** Trimmed length below which extracted text is rejected. */
  const MinTextLength: nat := 50

  const MissingFields := "Missing required fields"
  const PdfDisabled := "PDF upload not supported in production. Please use Word documents (.docx)"
  const UnsupportedType := "Unsupported file type. Please upload .docx or .txt files"
  const NoText := "Could not extract text from PDF"

  /** The file-type tests in priority order: plain text, then Word, then PDF. */
  function Classify(f: UploadFile): (k: FileKind)
    ensures k == PlainText <==> f.mimeType == "text/plain"
    ensures k == WordDocument <==>
      f.mimeType != "text/plain" && (f.mimeType == DocxMimeType || EndsWith(f.name, ".docx"))
    ensures k == Pdf <==>
      && f.mimeType !in {"text/plain", DocxMimeType} && !EndsWith(f.name, ".docx")
      && (f.mimeType == "application/pdf" || EndsWith(f.name, ".pdf"))
  {
    if f.mimeType == "text/plain" then PlainText
    else if f.mimeType == DocxMimeType || EndsWith(f.name, ".docx") then WordDocument
    else if f.mimeType == "application/pdf" || EndsWith(f.name, ".pdf") then Pdf
    else Unsupported
  }

  /**
   * The text of the file, or the response that ends the request: PDF parsing
   * only runs in development, and an extractor's exception becomes a 500.
   */
  function ExtractText(kind: FileKind, development: bool, ext: Extraction): (r: Result<Text, UploadResponse>)
    ensures kind == PlainText ==> r == Success(ext.utf8)
    ensures kind == WordDocument ==>
      r == (if ext.docx.Success? then Success(ext.docx.value) else Failure(ServerError(ext.docx.error)))
    ensures kind == Pdf && development ==>
      r == (if ext.pdf.Success? then Success(ext.pdf.value) else Failure(ServerError(ext.pdf.error)))
    ensures kind == Pdf && !development ==> r == Failure(BadRequest(PdfDisabled))
    ensures kind == Unsupported ==> r == Failure(BadRequest(UnsupportedType))
    ensures r.Failure? ==> !r.error.Uploaded?
    ensures r.Success? ==> kind != Unsupported && (kind == Pdf ==> development)
  {
    match kind
    case PlainText => Success(ext.utf8)
    case WordDocument =>
      (match ext.docx
       case Success(text) => Success(text)
       case Failure(message) => Failure(ServerError(message)))
    case Pdf =>
      if !development then Failure(BadRequest(PdfDisabled))
      else
        (match ext.pdf
         case Success(text) => Success(text)
         case Failure(message) => Failure(ServerError(message)))
    case Unsupported => Failure(BadRequest(UnsupportedType))
  }

  /**
   * `pdfText && pdfText.trim().length >= 50`. The emptiness test adds nothing:
   * the gate is the trimmed length alone.
   */
  predicate EnoughText(text: Text)
    ensures EnoughText(text) <==> |Trim(text)| >= MinTextLength
    ensures EnoughText(text) ==> |text| >= MinTextLength
  {
    text != [] && |Trim(text)| >= MinTextLength
  }

  /** The patient-facing link for a consent form. */
  function PatientLink(formId: string): (link: string)
    ensures |link| == 9 + |formId| && link[..9] == "/patient/" && link[9..] == formId
  {
    "/patient/" + formId
  }

  /**
   * The route once the text is accepted: the consent form is written first, then
   * the explainer is generated and written. Any exception on the way is the
   * route's catch-all 500 carrying the error's message.
   */
  function StoreForm(
    db: Store, doctorName: string, procedureName: string, text: Text,
    generator: Generator, random: Random, pos: nat,
    formId: string, explainerId: string, now: Timestamp)
    : (out: UploadOutcome)
    ensures out.db.sessions == db.sessions && out.db.verifications == db.verifications
    ensures !out.response.BadRequest?
    ensures out.response.Uploaded? ==>
      && out.response == Uploaded(formId, explainerId, PatientLink(formId))
      && formId !in db.forms
      && out.db.forms == db.forms[formId := ConsentForm(formId, doctorName, procedureName, text, now)]
      && |out.db.explainers| == |db.explainers| + 1
      && out.db.explainers[..|db.explainers|] == db.explainers
      && out.db.explainers[|db.explainers|].id == explainerId
      && out.db.explainers[|db.explainers|].formId == formId
    ensures out.response.ServerError? ==>
      && out.db.explainers == db.explainers
      && (|| out.db.forms == db.forms
          || (formId !in db.forms
              && out.db.forms == db.forms[formId := ConsentForm(formId, doctorName, procedureName, text, now)]))
  {
    var form := ConsentForm(formId, doctorName, procedureName, text, now);
    match InsertConsentForm(db, form, now)
    case Failure(e) => UploadOutcome(ServerError(ErrorMessage(e)), db)
    case Success(stored) =>
      match GenerateExplainer(procedureName, text, generator, random, pos)
      case Failure(message) => UploadOutcome(ServerError(message), stored)
      case Success(content) =>
        match InsertExplainer(stored, explainerId, formId, content, now)
        case Failure(e) => UploadOutcome(ServerError(ErrorMessage(e)), stored)
        case Success(done) => UploadOutcome(Uploaded(formId, explainerId, PatientLink(formId)), done)
  }

  /** `file && doctorName && procedureName`: the fields the route needs are present and non-empty. */
  predicate FieldsPresent(req: UploadRequest) {
    req.file.Some? && Truthy(req.doctorName) && Truthy(req.procedureName)
  }

  /** The whole route. */
  function Upload(
    db: Store, req: UploadRequest, ext: Extraction, development: bool,
    generator: Generator, random: Random, pos: nat,
    formId: string, explainerId: string, now: Timestamp)
    : (out: UploadOutcome)
    ensures out.db.sessions == db.sessions && out.db.verifications == db.verifications
    ensures !FieldsPresent(req) ==> out == UploadOutcome(BadRequest(MissingFields), db)
    ensures out.response.BadRequest? ==> out.db == db
    ensures out.response.Uploaded? ==>
      && FieldsPresent(req)
      && out.response == Uploaded(formId, explainerId, PatientLink(formId))
      && formId !in db.forms && formId in out.db.forms
      && out.db.forms == db.forms[formId := out.db.forms[formId]]
      && out.db.forms[formId] == ConsentForm(
           formId, req.doctorName.value, req.procedureName.value, out.db.forms[formId].pdfText, now)
      && EnoughText(out.db.forms[formId].pdfText)
      && |out.db.explainers| == |db.explainers| + 1
      && out.db.explainers[..|db.explainers|] == db.explainers
      && out.db.explainers[|db.explainers|].id == explainerId
      && out.db.explainers[|db.explainers|].formId == formId
    ensures out.response.ServerError? ==>
      && out.db.explainers == db.explainers
      && (|| out.db.forms == db.forms
          || (&& FieldsPresent(req) && formId !in db.forms && formId in out.db.forms
              && out.db.forms == db.forms[formId := out.db.forms[formId]]
              && out.db.forms[formId] == ConsentForm(
                   formId, req.doctorName.value, req.procedureName.value, out.db.forms[formId].pdfText, now)
              && EnoughText(out.db.forms[formId].pdfText)))
  {
    if !FieldsPresent(req) then
      UploadOutcome(BadRequest(MissingFields), db)
    else
      match ExtractText(Classify(req.file.value), development, ext)
      case Failure(response) => UploadOutcome(response, db)
      case Success(text) =>
        if !EnoughText(text) then UploadOutcome(BadRequest(NoText), db)
        else
          StoreForm(db, req.doctorName.value, req.procedureName.value, text, generator, random, pos, formId, explainerId, now)
  }
}

=== FILE: verify_route.dfy ===
/**
 * `POST /api/verify`: validate the body, look the session up, overwrite the
 * patient's name, grade the answers against the stored questions, store a
 * verification record and, on a pass only, mark the session complete.
 * The request's uuid and the current time are parameters.
 */
module VerifyRoute {
  import opened Wrappers
  import opened JsText
  import opened Content
  import opened Scoring
  import opened Db

  /** The parsed JSON body; a body that does not parse or destructure is `MalformedBody`. */
  datatype VerifyRequest =
    | MalformedBody
    | VerifyBody(sessionId: Option<string>, patientName: Option<string>, answers: Option<seq<Answer>>)

  /** The two request headers consulted for the client address. */
  datatype Headers = Headers(forwardedFor: Option<string>, realIp: Option<string>)

  datatype VerifyResponse =
    | BadRequest(error: string)
    | NotFound(error: string)
    | ServerError(error: string)
    | Verified(verificationId: string, score: Score, passed: bool, correct: nat, total: nat,
               results: seq<AnswerResult>)
  {
    /** The HTTP status the route answers with. */
    function Status(): int {
      match this
      case BadRequest(_) => 400
      case NotFound(_) => 404
      case ServerError(_) => 500
      case Verified(_, _, _, _, _, _) => 200
    }
  }

  datatype VerifyOutcome = VerifyOutcome(response: VerifyResponse, db: Store)

  /** The message of every exception the route catches. */
  const VerificationFailed := "Verification failed"

  /** `x-forwarded-for || x-real-ip || 'unknown'`: the first non-empty header, never empty. */
  function ClientIp(h: Headers): (ip: string)
    ensures ip != ""
    ensures Truthy(h.forwardedFor) ==> ip == h.forwardedFor.value
    ensures !Truthy(h.forwardedFor) && Truthy(h.realIp) ==> ip == h.realIp.value
    ensures !Truthy(h.forwardedFor) && !Truthy(h.realIp) ==> ip == "unknown"
  {
    if Truthy(h.forwardedFor) then h.forwardedFor.value
    else if Truthy(h.realIp) then h.realIp.value
    else "unknown"
  }

  /**
   * `sessionId && patientName && answers?.length`: the empty string counts as
   * missing, and so does an empty answer list although `[]` itself is truthy.
   */
  predicate HasRequiredFields(req: VerifyRequest)
    ensures HasRequiredFields(req) ==>
      && req.VerifyBody?
      && req.sessionId.Some? && req.sessionId.value != ""
      && req.patientName.Some? && req.patientName.value != ""
      && req.answers.Some? && |req.answers.value| >= 1
    ensures req.VerifyBody? && (req.sessionId == Some("") || req.patientName == Some("") || req.answers == Some([])) ==>
      !HasRequiredFields(req)
  {
    && req.VerifyBody?
    && Truthy(req.sessionId)
    && Truthy(req.patientName)
    && req.answers.Some? && |req.answers.value| > 0
  }

  /** `re_education_topics` as sent: the list when non-empty, `undefined` otherwise. */
  function StoredTopics(topics: seq<string>): (r: Option<seq<string>>)
    ensures r.None? <==> topics == []
    ensures r.Some? ==> r.value == topics
  {
    if |topics| > 0 then Some(topics) else None
  }

  /** The verification record the route writes for a grading. */
  function RecordFor(verificationId: string, sessionId: string, g: Grading, ip: string, now: Timestamp)
    : (v: VerificationRecord)
    ensures v.id == verificationId && v.sessionId == sessionId
    ensures v.answers == g.results && v.score == g.score && v.passed == g.passed
    ensures v.reEducationTopics.None? <==> g.topics == []
    ensures v.reEducationTopics.Some? ==> v.reEducationTopics.value == g.topics
    ensures v.verifiedAt == now && v.ipAddress == Some(ip)
  {
    VerificationRecord(verificationId, sessionId, g.results, g.score, g.passed, StoredTopics(g.topics), now, Some(ip))
  }

  /**
   * The tail of the route once the attempt is graded: store the verification
   * record, then stamp the session complete on a pass. A failed insert is the
   * route's catch-all 500 and leaves the renamed session in place.
   */
  function StoreGrading(named: Store, sid: string, g: Grading, verificationId: string, ip: string, now: Timestamp)
    : (out: VerifyOutcome)
    ensures out.response.Verified? <==>
      !g.score.NotANumber? && verificationId !in named.verifications && sid in named.sessions
    ensures !out.response.Verified? ==> out == VerifyOutcome(ServerError(VerificationFailed), named)
    ensures out.response.Verified? ==>
      && out.response == Verified(verificationId, g.score, g.passed, g.correct, g.total, g.results)
      && out.db.forms == named.forms && out.db.explainers == named.explainers
      && out.db.verifications == named.verifications[verificationId := RecordFor(verificationId, sid, g, ip, now)]
      && out.db.sessions == if g.passed then named.sessions[sid := named.sessions[sid].(completedAt := Some(now))]
                            else named.sessions
  {
    match InsertVerification(named, RecordFor(verificationId, sid, g, ip, now), now)
    case Failure(_) => VerifyOutcome(ServerError(VerificationFailed), named)
    case Success(stored) =>
      var finished := if g.passed then CompleteSession(stored, sid, now) else stored;
      VerifyOutcome(Verified(verificationId, g.score, g.passed, g.correct, g.total, g.results), finished)
  }

  /** The whole route. */
  function Verify(db: Store, req: VerifyRequest, headers: Headers, verificationId: string, now: Timestamp)
    : (out: VerifyOutcome)
    ensures out.db.forms == db.forms && out.db.explainers == db.explainers
    ensures req.MalformedBody? ==> out == VerifyOutcome(ServerError(VerificationFailed), db)
    ensures req.VerifyBody? && !HasRequiredFields(req) ==>
      out == VerifyOutcome(BadRequest("Missing required fields"), db)
    ensures HasRequiredFields(req) && req.sessionId.value !in db.sessions ==>
      out == VerifyOutcome(NotFound("Session not found"), db)
    ensures HasRequiredFields(req) ==>
      forall id :: id != req.sessionId.value ==> GetPatientSession(out.db, id) == GetPatientSession(db, id)
    ensures HasRequiredFields(req) && req.sessionId.value in db.sessions ==>
      var sid := req.sessionId.value;
      && sid in out.db.sessions
      && out.db.sessions[sid]
           == db.sessions[sid].(patientName := Some(req.patientName.value),
                                completedAt := out.db.sessions[sid].completedAt)
      && out.response != BadRequest("Missing required fields")
    ensures out.response.ServerError? && HasRequiredFields(req) && req.sessionId.value in db.sessions ==>
      out.db == UpdatePatientName(db, req.sessionId.value, req.patientName.value)
    ensures (&& HasRequiredFields(req) && req.sessionId.value in db.sessions
             && GetExplainerByFormId(db, db.sessions[req.sessionId.value].formId).None?) ==>
      out == VerifyOutcome(NotFound("Explainer not found"), UpdatePatientName(db, req.sessionId.value, req.patientName.value))
    ensures (&& HasRequiredFields(req) && req.sessionId.value in db.sessions
             && var e := GetExplainerByFormId(db, db.sessions[req.sessionId.value].formId);
                e.Some? && e.value.questions.None?) ==>
      out == VerifyOutcome(ServerError(VerificationFailed), UpdatePatientName(db, req.sessionId.value, req.patientName.value))
    ensures out.response.Verified? ==>
      var sid := req.sessionId.value;
      && HasRequiredFields(req) && sid in db.sessions
      && var e := GetExplainerByFormId(db, db.sessions[sid].formId);
      && e.Some? && e.value.questions.Some?
      && var g := Grade(e.value.questions.value, req.answers.value);
      && out.response == Verified(verificationId, g.score, g.passed, g.correct, g.total, g.results)
      && !out.response.score.NotANumber?
      && (out.response.passed <==> out.response.correct == out.response.total)
      && |out.response.results| == |req.answers.value|
      && verificationId !in db.verifications
      && verificationId in out.db.verifications
      && out.db.verifications == db.verifications[verificationId := out.db.verifications[verificationId]]
      && var v := out.db.verifications[verificationId];
         && v.sessionId == sid && v.answers == out.response.results
         && v.score == out.response.score && v.passed == out.response.passed
         && v.verifiedAt == now && v.ipAddress == Some(ClientIp(headers))
         && sid in out.db.sessions
         && out.db.sessions[sid].completedAt
              == (if out.response.passed then Some(now) else db.sessions[sid].completedAt)
    ensures !out.response.Verified? ==> out.db.verifications == db.verifications
  {
    if req.MalformedBody? then VerifyOutcome(ServerError(VerificationFailed), db)
    else if !HasRequiredFields(req) then VerifyOutcome(BadRequest("Missing required fields"), db)
    else
      var sid := req.sessionId.value;
      match GetPatientSession(db, sid)
      case None => VerifyOutcome(NotFound("Session not found"), db)
      case Some(session) =>
        var named := UpdatePatientName(db, sid, req.patientName.value);
        match GetExplainerByFormId(named, session.formId)
        case None => VerifyOutcome(NotFound("Explainer not found"), named)
        case Some(explainer) =>
          // `JSON.parse` of a stored `null`: the first `questions.find` throws.
          match explainer.questions
          case None => VerifyOutcome(ServerError(VerificationFailed), named)
          case Some(questions) =>
            StoreGrading(named, sid, Grade(questions, req.answers.value), verificationId, ClientIp(headers), now)
  }
}

=== FILE: wrappers.dfy ===
/** Failure-carrying values shared by every module of the model. */
module Wrappers {

  /** A value that may be absent: a JavaScript `undefined`/`null`, or a missing row. */
  datatype Option<+T> = None | Some(value: T) {

    /** The value, or `default` when there is none. */
    function GetOr(default: T): T {
      match this
      case Some(v) => v
      case None => default
    }
  }

  /** The outcome of an operation that can throw: a value, or the error it raises. */
  datatype Result<+R, +E> = Success(value: R) | Failure(error: E)
}
